=== FILE: README.md ===
# Virtual classroom: a verified model of the live room and the classroom rules

This project models, in Dafny, the parts of the virtual-classroom application that hold
real rules:

- **The live-room coordinator** of the socket server (`server/index.js`). It keeps the
  module-level `roomUsers` table (room id to the ordered `{userId, name, socketId}`
  entries of the call) and each classroom's `isActive` flag. Its handlers are
  `join-room`, the per-join `disconnect` listener, `start-class` with its auto-end
  timer, `end-class`, the hand and chat relays, and the two WebRTC signaling relays.
  `RoomState` states each handler as one atomic step that returns the events it emits,
  each addressed to an audience. `RoomServer.Coordinator` is the mutable server: a
  class whose methods update its fields in place and are proved to take exactly the
  `RoomState` step while keeping the invariant `RoomState.Inv`. The invariant says
  that no room lists a user twice, and that every entry still has the disconnect
  listener that will prune it.
- **The room page's bookkeeping** (`client/src/pages/Room.jsx`). `RoomPage.RoomView` is
  the page's state: the peer list (ref and state), the participants table keyed by
  socket id, the raised hands, the local hand flag and the chat log. Its socket
  listeners and buttons are methods. `RoomLayout` holds what each render derives: the
  teachers-first peer order, the student tiles (built by a loop, as the page does),
  the pagination (page 0 is the teacher's stage, then nine students per page) and the
  order of the participants panel.
- **The HTTP rules** of the classroom, submission and assignment routes: the guard
  chains, in the order the code runs them, and the store updates that follow them.
  This includes the six-digit join-code retry loop (`ClassroomRoutes.ClassroomStore`,
  a class over the classroom collection), one submission per student and assignment,
  inclusive deadlines, due dates not in the past, the cascading assignment delete,
  and the newest-first listing.
- **The expiry sweep** (`server/cron/cleanup.js`): a loop that deletes each expired
  assignment's submissions and then the assignment.
- **The upload middleware** (`server/middleware/upload.js`): the file-type check on
  the lower-cased `path.extname` of the original name, the size limit, the stored file
  name, and how the routes turn upload errors into 400 replies.

Modelling conventions:
- Ids are opaque strings. A missing or falsy request field is the empty string, and a
  nullable value is an `Option`.
- Dates are integer timestamps.
- Each database collection is a sequence of records in store order.
- Values the environment supplies are parameters: the random draws behind a join code,
  the id the database assigns, the current time, and which armed timer fires next.

Behaviours of the code that look unintended, and that the model keeps as written:
- The disconnect listener removes the user's entries whatever socket made them. A
  stale socket's disconnect therefore removes a newer session (`RoomState.StaleDisconnectDropsRejoin`).
- `start-class` checks nothing about the sender and does not set `isActive`.
- Auto-end timers are never cancelled. A timer still armed after a manual end ends the
  next session the teacher starts (`RoomState.StaleTimerEndsNextSession`).
- Raise-hand and lower-hand are relayed for any `userId`, with no authority check.
- The server has no `leave-room` or `toggle-media` handler, and a `roomUsers` entry
  has no role and no media flags.
- The page's `user-connected` handler reads a `socketId` that the server never sends,
  so the entry lands under the key `"undefined"`.
- The `all-users` snapshot carries no role, so no remote peer learnt from it counts
  as a teacher on the page (`RoomPage.MergeSnapshotEntries`).
- The type filter rejects with a bare string. The routes therefore reply
  "Upload error", not "Error: Files Only!".
- The size limit is 10000000 bytes, while the reply for an oversized file says 5 MB.
- The type pattern is unanchored, so an extension that merely contains an allowed
  one (".pdfx") passes.
- Deleting an unknown assignment leaves the submissions that name its id in place.
- The delete-classroom reply reads "Ciassroom deleted", and the model keeps that
  spelling.

## Model

| member | source | states |
|---|---|---|
| RoomState.JoinRefusesOutsiders | server/index.js:107-120 | A join for an unknown classroom, or from someone who is neither its teacher nor a listed student, changes nothing and sends only an error to the sender ("Classroom not found" / "You are not a member of this class"). |
| RoomState.JoinWaitsForLiveClass | server/index.js:122-132 | A non-teacher's join while the class is not live changes nothing and sends "Class is not live yet" (or the membership error if not listed). |
| RoomState.AdmittedJoinIsPresent | server/index.js:122-157 | An admitted join leaves the joiner in the room under its socket and the classroom live; only that classroom's flag changes and every other room's list is untouched. |
| RoomState.DuplicateJoinIsQuiet | server/index.js:141-147 | A repeated join from the same (userId, socket) changes no membership, registers no listener, broadcasts nothing and resends the snapshot of the other entries. |
| RoomState.FreshJoinReplaces | server/index.js:149-165 | A fresh join removes the user's earlier entries and appends the new one last, keeps the other entries in order, snapshots exactly those others to the joiner, announces user-connected to the rest of the room and registers one disconnect listener. |
| RoomState.JoinKeepsInv | server/index.js:134-165 | Every join keeps the invariant: one entry per userId per room, and every entry has its disconnect listener. |
| RoomState.HookIgnoresSocket | server/index.js:159-163 | One disconnect listener removes every entry of its user in its room, whatever socket made the entry, and leaves all other entries and rooms as they were. |
| RoomState.DisconnectKeepsInv | server/index.js:159-165 | A disconnect keeps the invariant. |
| RoomState.DisconnectLeavesNoSession | server/index.js:159-165 | After a socket disconnects, no room holds an entry made from that socket. |
| RoomState.DisconnectAnnounces | server/index.js:159-165 | A disconnect emits one user-disconnected per listener of that socket (as many events as listeners, and an event for every listener), each carrying the listener's user and the socket id, to the rest of that listener's room; that socket's listeners are gone, other listeners stay, classrooms and timers are unchanged. |
| RoomState.StaleDisconnectDropsRejoin | server/index.js:149-165 | After a user joins from socket A and then from socket B, B is the session in the room, yet A's disconnect leaves no entry for the user at all. |
| RoomState.StartClassOnlyArms | server/index.js:180-201 | start-class changes no membership, listener or classroom flag, appends one timer for the room to the armed timers when duration > 0 and otherwise leaves them as they were (no timer is ever cancelled), and tells the dashboard the class is active. |
| RoomState.EndClassByTeacherOnly | server/index.js:211-224 | end-class from the classroom's teacher switches it offline and changes no other classroom, deletes its membership list, keeps every other room, the listeners and the timers, and emits class-ended to the room and class-status-changed false to the dashboard; from anyone else it changes nothing and emits nothing. |
| RoomState.TimerOnIdleRoomIsSilent | server/index.js:187-197 | A timer for a classroom that is missing or not live only disarms itself: no event and no other change. |
| RoomState.TimerAfterManualEndIsSilent | server/index.js:187-197 | After the teacher's end-class, an armed timer of that room fires silently, so class-ended is not sent twice. |
| RoomState.StaleTimerEndsNextSession | server/index.js:185-198 | Because timers are never cancelled, a timer armed before a manual end ends the session the teacher starts next. |
| RoomState.EndRoomKeepsInv | server/index.js:190-196 | Switching a room offline and dropping its list keeps the invariant. |
| RoomState.TimersKeepInv | server/index.js:180-224 | start-class, end-class and any timer firing keep the invariant. |
| RoomState.RelaysIgnoreServerState | server/index.js:203-239 | raise-hand, lower-hand and send-message change no server state, and what they emit is the same in every state (whether or not the sender is a member, whether or not the class is live): no authority check and no hand state; every event goes to the whole room, sender included, and a chat message is relayed unchanged. |
| RoomState.SignalRoundTrip | server/index.js:227-233 | The offer reaches the named socket with signal and caller id unchanged; the answer built from it reaches the original caller tagged with the responder's socket id. |
| RoomServer.Coordinator.constructor | server/index.js:98 | A fresh server has no room entries, no listener and no timer, and satisfies the invariant. |
| RoomServer.Coordinator.JoinRoom | server/index.js:103-173 | The in-place join handler produces exactly the RoomState join step (new table, flags, listeners and emitted events) and keeps the invariant. |
| RoomServer.Coordinator.EnterRoom | server/index.js:138-165 | Once a member is admitted, the in-place table, listener list and emitted events are exactly the RoomState enter step: a repeat from the same socket only resends the list, otherwise the user's old entries are replaced by the new one, the room is told and a disconnect listener is added. |
| RoomServer.Coordinator.Disconnect | server/index.js:159-165 | The in-place disconnect produces exactly the RoomState disconnect step and keeps the invariant. |
| RoomServer.Coordinator.StartClass | server/index.js:180-201 | The in-place start-class produces exactly the RoomState step and keeps the invariant. |
| RoomServer.Coordinator.FireTimer | server/index.js:187-197 | The in-place timer callback produces exactly the RoomState step and keeps the invariant. |
| RoomServer.Coordinator.EndClass | server/index.js:211-224 | The in-place end-class produces exactly the RoomState step and keeps the invariant. |
| RoomLayout.TotalStudentPages | client/src/pages/Room.jsx:489 | The page count is at least 1 and is the fewest pages of nine that hold max(n, 1) tiles. |
| RoomLayout.TotalPages | client/src/pages/Room.jsx:490 | The teacher's stage is one page more than the student pages (the body is 1 + TotalStudentPages), so there are always at least two pages. |
| RoomLayout.StudentPage | client/src/pages/Room.jsx:591 | Tile idx lands on a 1-based page p with 9(p-1) <= idx < 9p. |
| RoomLayout.PagingStaysInRange | client/src/pages/Room.jsx:492-493 | From an in-range page, next and previous stay in [0, totalPages-1] and move by at most one page. |
| RoomLayout.PagingClamps | client/src/pages/Room.jsx:492-493 | Whatever the current page, next never passes the last page and previous never goes below 0. |
| RoomLayout.StudentPageInRange | client/src/pages/Room.jsx:489-591 | Every student tile lands on a page between 1 and totalStudentPages. |
| RoomLayout.StudentPageWindow | client/src/pages/Room.jsx:591 | Page k shows exactly the tiles 9(k-1) .. 9k-1 (both directions), so at most nine. |
| RoomLayout.NoEmptyStudentPage | client/src/pages/Room.jsx:489-591 | With at least one tile, every student page shows at least one tile. |
| RoomLayout.SortedPeersTeachersFirst | client/src/pages/Room.jsx:454-462 | The sorted peers are the same peers, and every teacher comes before every non-teacher. |
| RoomLayout.AllStudents | client/src/pages/Room.jsx:474-486 | The push loop builds the local tile (unless the user is a teacher) followed by a remote tile for each non-teacher peer, in sorted-peer order. |
| RoomLayout.AllStudentsContents | client/src/pages/Room.jsx:474-486 | The local tile is present exactly when the user is not a teacher, and then first; a remote tile is present exactly for the non-teacher peers; the teachers-first sort does not change the remote students' order. |
| RoomLayout.TeacherTile | client/src/pages/Room.jsx:468-471 | The stage shows the local user when a teacher, else the first teacher in the sorted peers (every peer before it is not a teacher), and is empty only when no peer is a teacher. |
| RoomLayout.LocaleCompare | client/src/pages/Room.jsx:754 | The name comparison returns -1, 0 or 1, and 0 exactly for equal names. |
| RoomLayout.CompareTotal | client/src/pages/Room.jsx:742-755 | Any two panel entries are ordered one way or the other by the comparator. |
| RoomLayout.CompareTrans | client/src/pages/Room.jsx:742-755 | The comparator's order is transitive. |
| RoomLayout.SortParticipantsCorrect | client/src/pages/Room.jsx:741-755 | The panel list is a permutation of the entries, ordered pairwise by the comparator. |
| RoomLayout.ParticipantPanelOrder | client/src/pages/Room.jsx:741-755 | In the panel, teachers come first; within a role, raised hands come first; within those, names ascend. |
| RoomPage.WithPeer | client/src/pages/Room.jsx:242-261 | Adding a peer id adds it only if absent: the old list is a prefix, the list grows by at most one and stays duplicate-free. |
| RoomPage.WithoutPeer | client/src/pages/Room.jsx:156-158 | The filtered peer list holds exactly the other peer ids. |
| RoomPage.WithPeersKeepsDistinct | client/src/pages/Room.jsx:131-133 | One createPeer per listed socket leaves a duplicate-free list holding the old peers and the listed sockets. |
| RoomPage.WithoutPeerKeepsDistinct | client/src/pages/Room.jsx:156-158 | Removing a peer keeps the list duplicate-free. |
| RoomPage.MergeSnapshotEntries | client/src/pages/Room.jsx:124-129 | After all-users every listed socket has an entry with no role (so it is not a teacher), every other entry is unchanged, and no other key appears. |
| RoomPage.WithConnected | client/src/pages/Room.jsx:147-148 | user-connected puts the new user, with no role and media on, under the key "undefined" and leaves every other key and entry as it was. |
| RoomPage.UserConnectedOverwrites | client/src/pages/Room.jsx:147-148 | Two user-connected events, applied through WithConnected, leave one "undefined" entry holding the later user; the earlier user is gone from the table unless already listed under a socket id, and the table grows by at most one key. |
| RoomPage.RoomView.constructor | client/src/pages/Room.jsx:112 | The page starts with only the local participant, no peers, no hands and no messages. |
| RoomPage.RoomView.CreatePeer | client/src/pages/Room.jsx:242-280 | createPeer/addPeer add a peer exactly when its id is not yet present; the ref and state lists stay equal and duplicate-free; nothing else changes. |
| RoomPage.RoomView.OnAllUsers | client/src/pages/Room.jsx:124-134 | all-users merges one snapshot entry per listed socket and opens one peer per socket not yet present, changing nothing else. |
| RoomPage.RoomView.OnUserDisconnected | client/src/pages/Room.jsx:152-172 | user-disconnected drops that socket from the peers and the participants and the user from the raised hands; nothing else changes. |
| RoomPage.RoomView.OnUserConnected | client/src/pages/Room.jsx:147-150 | user-connected updates the participants table as WithConnected says; nothing else changes. |
| RoomPage.RoomView.OnUserRaisedHand | client/src/pages/Room.jsx:182-183 | user-raised-hand adds the user to the raised hands; nothing else changes. |
| RoomPage.RoomView.OnUserLoweredHand | client/src/pages/Room.jsx:194-201 | user-lowered-hand removes the user's hand and clears the local flag exactly when it is the local user. |
| RoomPage.RoomView.OnUserToggledMedia | client/src/pages/Room.jsx:203-212 | The new media flags go to one participant with that userId, and nothing changes when there is none. |
| RoomPage.RoomView.OnReceiveMessage | client/src/pages/Room.jsx:174-175 | A received message is appended to the chat log; nothing else changes. |
| RoomPage.RoomView.ToggleHand | client/src/pages/Room.jsx:326-333 | A teacher sends nothing and keeps the flag; a student sends lower-hand if the hand was raised, else raise-hand, and the flag flips. |
| RoomPage.RoomView.LowerHandOf | client/src/pages/Room.jsx:335-343 | Lowering a target's hand sends lower-hand for the target and drops the target's hand locally at once. |
| Upload.Extname | server/middleware/upload.js:33 | The extension is empty or starts with a dot, and has no slash and no further dot; when not empty it is a proper suffix of the base name, and it is empty exactly when the base name is ".." or has no dot after its first character. |
| Upload.BasenameIsLastComponent | server/middleware/upload.js:33 | The base name is the end of the path with trailing slashes dropped, starting at the beginning of the path or just after a slash. |
| Upload.ExtnameOfName | server/middleware/upload.js:33 | A slash-free name whose last dot is at position p > 0 has the extension from that dot to the end. |
| Upload.DotFileHasNoExtension | server/middleware/upload.js:33 | A dot-file, whose only dot is its first character, has no extension. |
| Upload.CheckFileType | server/middleware/upload.js:29-42 | A file is accepted exactly when an allowed type occurs anywhere in its lower-cased extension, and is otherwise rejected with "Error: Files Only!". |
| Upload.CheckFileTypeIgnoresCase | server/middleware/upload.js:33 | Lower-casing the name does not change the verdict. |
| Upload.NoExtensionRejected | server/middleware/upload.js:37-41 | A name with no extension is rejected with "Error: Files Only!". |
| Upload.DotFileRejected | server/middleware/upload.js:31-41 | A dot-file such as ".pdf" is rejected even though its name is an allowed type. |
| Upload.UnanchoredPatternAcceptsLongerExtension | server/middleware/upload.js:31-33 | Any name made of a stem with no slash or dot followed by ".PDFX" has the extension ".PDFX" and is accepted, because "pdf" occurs inside it. |
| Upload.PdfNameAccepted | server/middleware/upload.js:31-39 | Any stem with no slash or dot, followed by ".pdf", passes the type filter. |
| Upload.Receive | server/middleware/upload.js:20-26 | A request with no file gives no file; a stored file came under the field "file", passed the type filter, is at most 10000000 bytes and is named from the timestamp and its extension. |
| Upload.UploadErrorResponse | server/routes/resources.js:14-22 | Every upload error is a 400: LIMIT_FILE_SIZE says "File size should be less than 5 MB", another library error gives its own message, and any other error gives its message or "Upload error". |
| Upload.FileUrl | server/routes/resources.js:29 | The file URL ends with the stored file name. |
| Upload.TypeRejectionReportsGenericError | server/middleware/upload.js:37-41 | A file the type filter refuses reaches the client as 400 "Upload error". |
| Upload.SizeLimitIsTenMillionBytes | server/middleware/upload.js:22 | A file of an allowed type is stored exactly when it has at most 10000000 bytes; otherwise the reply is the 5 MB message. |
| Upload.StoredFilenameKeepsExtension | server/middleware/upload.js:15 | The stored name keeps the original extension, starts with "file-", and its digits read back as the timestamp. |
| Text.DecimalRoundTrip | server/routes/classrooms.js:16 | The decimal digits of a number read back as that number. |
| Text.DecimalLength | server/routes/classrooms.js:16 | A number between 10^k and 10^(k+1) has k+1 digits. |
| ClassroomRoutes.GenerateCode | server/routes/classrooms.js:15-17 | A join code has six digits, does not start with 0, and denotes 100000 plus the draw. |
| ClassroomRoutes.GenerateCodeInjective | server/routes/classrooms.js:15-17 | Different draws give different codes. |
| ClassroomRoutes.FindByCode | server/routes/classrooms.js:62 | The lookup finds the first class with that code, and none exactly when no class has it. |
| ClassroomRoutes.FindById | server/routes/classrooms.js:136 | The lookup finds a class with that id, and none only when no class has it. |
| ClassroomRoutes.AppendFreshKeepsInvariant | server/routes/classrooms.js:37-45 | Saving a class with a new id and an unused code keeps ids and codes unique. |
| ClassroomRoutes.JoinDecision | server/routes/classrooms.js:58-80 | In order: a missing field is 400, an unknown code 404, an enrolled student 400 "Already enrolled", the teacher 400, otherwise 200 for the class with that code. |
| ClassroomRoutes.JoinEnrolsOnce | server/routes/classrooms.js:77 | A successful join lists the student exactly once, last, and keeps the store invariant. |
| ClassroomRoutes.SecondJoinRefused | server/routes/classrooms.js:68-70 | Joining again with the same code is refused as "Already enrolled". |
| ClassroomRoutes.EnrolmentCheckPrecedesTeacherCheck | server/routes/classrooms.js:67-75 | A teacher who is also listed as a student gets "Already enrolled", because that check runs first. |
| ClassroomRoutes.DeleteDecision | server/routes/classrooms.js:136-141 | A missing class is 404, a caller who is not its teacher 401, otherwise the class is the one deleted. |
| ClassroomRoutes.DeleteWithoutTeacherRefused | server/routes/classrooms.js:139-141 | Without a teacher id in the request a delete is never authorised. |
| ClassroomRoutes.DeleteRemovesOnlyTarget | server/routes/classrooms.js:143 | An authorised delete removes exactly the class with that id, keeps every other class and the store invariant. |
| ClassroomRoutes.ClassroomStore.constructor | server/models/Classroom.js:3-37 | The store starts from persisted classes with unique ids and codes. |
| ClassroomRoutes.ClassroomStore.Create | server/routes/classrooms.js:20-46 | A missing field is 400 and saves nothing; otherwise the loop skips exactly the taken codes, uses the first free draw, and saves one new class with no students, not live. |
| ClassroomRoutes.ClassroomStore.JoinByCode | server/routes/classrooms.js:54-80 | The store follows the join decision: a refusal changes nothing, a success appends the student to that class only. |
| ClassroomRoutes.ClassroomStore.Delete | server/routes/classrooms.js:130-144 | The store follows the delete decision: a refusal changes nothing, a success removes that class and replies "Ciassroom deleted". |
| Records.DropSubmissionsOf | server/routes/resources.js:73 | Exactly the submissions of other assignments remain. |
| Records.DropAssignment | server/routes/resources.js:68 | Exactly the assignments with other ids remain. |
| SubmissionRoutes.FindAssignment | server/routes/submissions.js:44 | The lookup finds an assignment with that id, and none only when no assignment has it. |
| SubmissionRoutes.FindSubmission | server/routes/submissions.js:38 | The lookup finds a submission of that student for that assignment, and none exactly when there is none. |
| SubmissionRoutes.Submit | server/routes/submissions.js:11-59 | A refusal stores nothing and a success appends exactly the new submission with 201; an upload error, a missing studentId and a duplicate are refused in that order with their messages. |
| SubmissionRoutes.SubmitAccepted | server/routes/submissions.js:51-59 | An accepted submission records the pair and the content, with no grade and empty feedback, for an existing assignment not yet due, and keeps one submission per pair. |
| SubmissionRoutes.SecondSubmitRefused | server/routes/submissions.js:38-41 | A second attempt for the same pair is refused and stores nothing. |
| SubmissionRoutes.DuplicateCheckedBeforeAssignment | server/routes/submissions.js:37-45 | A duplicate is reported even when the assignment does not exist. |
| SubmissionRoutes.DeadlineIsInclusive | server/routes/submissions.js:47-49 | Submitting at the due time is accepted, and any later time is refused with the deadline message. |
| SubmissionRoutes.UnknownAssignmentNotFound | server/routes/submissions.js:44-45 | An unknown assignment is a 404 once the earlier checks pass. |
| SubmissionRoutes.MySubmission | server/routes/submissions.js:73-76 | The reply is the student's submission for the assignment, or null exactly when there is none. |
| SubmissionRoutes.MySubmissionAfterSubmit | server/routes/submissions.js:73-76 | After an accepted submission, my-submission returns exactly that submission. |
| ResourceRoutes.CreateAssignment | server/routes/resources.js:13-56 | A refusal stores nothing and a success appends the new assignment with 201; an upload error, a missing due date and a due date before now are refused with their messages, and a request that passes the upload with a due date at or after now is always accepted. |
| ResourceRoutes.CreatedAssignmentFields | server/routes/resources.js:27-46 | A created assignment belongs to the route's classroom, is due no earlier than now, and has a file URL exactly when a file came. |
| ResourceRoutes.DueDateBoundary | server/routes/resources.js:36-38 | A due date equal to now is accepted and one a moment earlier is refused. |
| ResourceRoutes.DeleteAssignment | server/routes/resources.js:64-80 | An unknown id is a 404 and deletes nothing; otherwise the reply is "Assignment deleted". |
| ResourceRoutes.DeleteCascades | server/routes/resources.js:68-73 | Deleting an existing assignment removes it and every submission for it, and keeps every other assignment and submission. |
| ResourceRoutes.UnknownDeleteKeepsOrphans | server/routes/resources.js:68-69 | Deleting an id no assignment has changes neither store, even if submissions name that id. |
| ResourceRoutes.OfClassroom | server/routes/resources.js:90 | Exactly the classroom's assignments are selected, each exactly as often as stored, and nothing else. |
| ResourceRoutes.SortNewestFirstCorrect | server/routes/resources.js:90 | The sort is a permutation ordered by creation time, newest first. |
| ResourceRoutes.ListAssignmentsCorrect | server/routes/resources.js:88-91 | The listing holds exactly the classroom's assignments, each as often as stored, newest first. |
| Cleanup.ExpiredOf | server/cron/cleanup.js:10 | The query returns exactly the assignments due before now. |
| Cleanup.KeepUnexpired | server/cron/cleanup.js:10-19 | Exactly the assignments due at now or later remain. |
| Cleanup.WithoutExpiredIds | server/cron/cleanup.js:15-19 | With unique ids, deleting the expired assignments by id leaves exactly the unexpired ones, in order. |
| Cleanup.Sweep | server/cron/cleanup.js:8-23 | The loop leaves exactly the unexpired assignments and exactly the submissions of assignments it did not delete. |
| Cleanup.SweepOutcome | server/cron/cleanup.js:10-19 | After a sweep no assignment is past due, no submission of a deleted assignment remains, and every unexpired assignment and every other submission is kept. |
| Cleanup.SecondSweepDeletesNothing | server/cron/cleanup.js:10-12 | A second sweep at the same time finds nothing expired and changes nothing. |
| Cleanup.KeepUnexpiredIdempotent | server/cron/cleanup.js:10 | A store with nothing past due is left as it is. |

## Left out

- MongoDB and Mongoose, socket.io delivery and rooms, and the interleaving at `await` points: each handler and route is one atomic step over abstract stores. A failed save (the 500 replies and the "Server error joining room" reply) is not modelled.
- The `setTimeout` delay: an armed timer is a list entry that the environment may fire at any time.
- `join-classroom-dashboard`: it only subscribes a socket to the dashboard channel, and channel subscription belongs to socket.io.
- Media and WebRTC on the page: `getUserMedia`, the simple-peer objects and their signals, mute and video toggles, screen sharing, the speaking indicator, and the `leave-room`/`toggle-media` emissions (the server has no handler for them). The page keeps only the peer-list dedupe and the state updates.
- Rendering, toasts and navigation, including the `class-ended` listener, which only navigates away.
- RoomPage.RoomView.OnUserToggledMedia: does not say which of several matching sockets is updated, because JavaScript key order is not part of the model.
- RoomLayout.LocaleCompare: orders by code point, while `localeCompare` follows the locale's collation rules.
- Text.Lower: lower-cases ASCII letters only, while `toLowerCase` covers all of Unicode.
- The `sortedPeers` comparator is inconsistent when two peers are teachers (each is said to come first). The model takes the stable sort's result as teachers first, then the rest in their order; an engine could order such a list differently.
- The route-level socket emissions (`assignment-created`, `assignment-deleted`): the server never calls `app.set('io', io)`, so `req.app.get('io')` is undefined and they never fire.
- The expiry sweep is not started by the server entry point (`server/index.js` never loads `server/cron/cleanup.js`). The model states what one run does.
- The upload writes the file to disk before the route's own checks. A file is stored even when the route then refuses the request; the model keeps only the name and the URL.
- ClassroomRoutes.ClassroomStore.Create: requires that some draw gives an unused code. The random draws are an environment input, and the source loops until it finds one.
- ClassroomRoutes.ClassroomStore.Create: requires that the id the database assigns is new.
- `server/models/Assignment.js` is not part of this model. An assignment's `createdAt` is taken to be the creation time.
- ResourceRoutes.CreateAssignment: a due date that does not parse (which the source turns into a failed save, so a 500) is not modelled; the due date is already an integer.
- SubmissionRoutes.MySubmission: a query without `studentId` is not modelled separately; the missing id is the empty string.
- The routes `GET /my-classes`, `GET /:id`, materials, announcements and users, the auth routes, the seed and debug scripts.
- Cleanup.Sweep: requires unique assignment ids, as the database guarantees.

=== FILE: classroom_routes.dfy ===
/**
 * The classroom routes: creating a class under a fresh six-digit join code, joining
 * a class by its code, and deleting a class as its teacher.  The guard chains are
 * decision functions; the store that the routes update in place is a class whose
 * methods are proved to follow those decisions.
 */
module ClassroomRoutes {
  import opened Wrappers
  import opened Text
  import opened Records
  import opened Http

  // ---------------------------------------------------------------------------
  // Join codes

  /**
   * `generateCode`: `Math.floor(100000 + Math.random() * 900000)` as a string, with
   * `draw` standing for `Math.floor(Math.random() * 900000)`.
   */
  function GenerateCode(draw: nat): (code: string)
    requires draw < 900000
    ensures |code| == 6 && code[0] != '0'
    ensures forall i :: 0 <= i < |code| ==> IsDigit(code[i])
    ensures DecimalValue(code) == 100000 + draw
  {
    DecimalLength(100000 + draw, 5);
    DecimalRoundTrip(100000 + draw);
    Decimal(100000 + draw)
  }

  /** Different draws give different codes. */
  lemma GenerateCodeInjective(a: nat, b: nat)
    requires a < 900000 && b < 900000 && GenerateCode(a) == GenerateCode(b)
    ensures a == b
  {
  }

  predicate CodeTaken(classrooms: seq<Classroom>, code: string) {
    exists i :: 0 <= i < |classrooms| && classrooms[i].code == code
  }

  predicate UniqueCodes(classrooms: seq<Classroom>) {
    forall i, j :: 0 <= i < j < |classrooms| ==> classrooms[i].code != classrooms[j].code
  }

  predicate UniqueIds(classrooms: seq<Classroom>) {
    forall i, j :: 0 <= i < j < |classrooms| ==> classrooms[i].id != classrooms[j].id
  }

  predicate DistinctIds(ids: seq<string>) {
    forall i, j :: 0 <= i < j < |ids| ==> ids[i] != ids[j]
  }

  /**
   * What the collection guarantees: ids and join codes are unique, every class has a
   * teacher, and no student is listed twice in a class.
   */
  predicate StoreInvariant(classrooms: seq<Classroom>) {
    && UniqueIds(classrooms)
    && UniqueCodes(classrooms)
    && (forall i :: 0 <= i < |classrooms| ==> classrooms[i].teacherId != [])
    && (forall i :: 0 <= i < |classrooms| ==> DistinctIds(classrooms[i].studentIds))
  }

  /** The document a successful create saves: no students yet, not live. */
  function NewClassroom(id: string, name: string, subject: string, teacherId: string, code: string): Classroom {
    Classroom(id, name, subject, teacherId, [], code, false)
  }

  /** `Classroom.findOne({ code })`: the index of the first class with that code. */
  function FindByCode(classrooms: seq<Classroom>, code: string): (r: Option<nat>)
    ensures r.Some? ==> r.value < |classrooms| && classrooms[r.value].code == code
    ensures r.Some? ==> forall j :: 0 <= j < r.value ==> classrooms[j].code != code
    ensures r.None? <==> !CodeTaken(classrooms, code)
  {
    if classrooms == [] then None
    else if classrooms[0].code == code then Some(0)
    else match FindByCode(classrooms[1..], code)
      case None => None
      case Some(k) => Some(k + 1)
  }

  /** `Classroom.findById(id)`: the index of the class with that id. */
  function FindById(classrooms: seq<Classroom>, id: string): (r: Option<nat>)
    ensures r.Some? ==> r.value < |classrooms| && classrooms[r.value].id == id
    ensures r.None? ==> forall j :: 0 <= j < |classrooms| ==> classrooms[j].id != id
  {
    if classrooms == [] then None
    else if classrooms[0].id == id then Some(0)
    else match FindById(classrooms[1..], id)
      case None => None
      case Some(k) => Some(k + 1)
  }

  /** Adding a class whose id and code are new and which has a teacher keeps the store invariant. */
  lemma AppendFreshKeepsInvariant(classrooms: seq<Classroom>, c: Classroom)
    requires StoreInvariant(classrooms)
    requires !CodeTaken(classrooms, c.code) && FindById(classrooms, c.id).None?
    requires c.teacherId != [] && DistinctIds(c.studentIds)
    ensures StoreInvariant(classrooms + [c])
  {
    var cs := classrooms + [c];
    forall i, j | 0 <= i < j < |cs| ensures cs[i].code != cs[j].code && cs[i].id != cs[j].id {
      if j == |classrooms| {
        assert cs[i] == classrooms[i];
      }
    }
  }

  // ---------------------------------------------------------------------------
  // The join guard chain

  /** `classroom.studentIds.push(studentId)` */
  function Enrol(c: Classroom, studentId: string): Classroom {
    c.(studentIds := c.studentIds + [studentId])
  }

  /**
   * The checks of POST /join, in order: both fields present, a class with that code,
   * not already enrolled, not its teacher.  On success the body is the class's index.
   */
  function JoinDecision(classrooms: seq<Classroom>, code: string, studentId: string): (r: Reply<nat>)
    ensures (code == [] || studentId == []) ==> r == Refused(Response(400, "Missing fields"))
    ensures code != [] && studentId != [] && !CodeTaken(classrooms, code) ==>
      r == Refused(Response(404, "Classroom not found"))
    ensures code != [] && studentId != [] && CodeTaken(classrooms, code) ==>
      var i := FindByCode(classrooms, code).value;
      && (studentId in classrooms[i].studentIds ==> r == Refused(Response(400, "Already enrolled")))
      && (studentId !in classrooms[i].studentIds && classrooms[i].teacherId == studentId ==>
            r == Refused(Response(400, "Teacher cannot join their own class as student")))
      && (studentId !in classrooms[i].studentIds && classrooms[i].teacherId != studentId ==> r == Sent(200, i))
  {
    if code == [] || studentId == [] then Refused(Response(400, "Missing fields"))
    else match FindByCode(classrooms, code)
      case None => Refused(Response(404, "Classroom not found"))
      case Some(i) =>
        if studentId in classrooms[i].studentIds then Refused(Response(400, "Already enrolled"))
        else if classrooms[i].teacherId == studentId then Refused(Response(400, "Teacher cannot join their own class as student"))
        else Sent(200, i)
  }

  /** A successful join lists the student exactly once and keeps the store invariant. */
  lemma JoinEnrolsOnce(classrooms: seq<Classroom>, code: string, studentId: string)
    requires StoreInvariant(classrooms)
    requires JoinDecision(classrooms, code, studentId).Sent?
    ensures var i := JoinDecision(classrooms, code, studentId).body;
      var after := classrooms[i := Enrol(classrooms[i], studentId)];
      && StoreInvariant(after)
      && studentId in after[i].studentIds
      && (forall j :: 0 <= j < |after[i].studentIds| && after[i].studentIds[j] == studentId ==>
            j == |after[i].studentIds| - 1)
  {
    var i := JoinDecision(classrooms, code, studentId).body;
    var ids := Enrol(classrooms[i], studentId).studentIds;
    assert DistinctIds(ids) by {
      forall a, b | 0 <= a < b < |ids| ensures ids[a] != ids[b] {
        if b == |ids| - 1 {
          assert ids[a] == classrooms[i].studentIds[a];
        }
      }
    }
  }

  /** Joining twice with the same code: the second attempt is refused as already enrolled. */
  lemma SecondJoinRefused(classrooms: seq<Classroom>, code: string, studentId: string)
    requires JoinDecision(classrooms, code, studentId).Sent?
    ensures var i := JoinDecision(classrooms, code, studentId).body;
      JoinDecision(classrooms[i := Enrol(classrooms[i], studentId)], code, studentId)
        == Refused(Response(400, "Already enrolled"))
  {
    var i := JoinDecision(classrooms, code, studentId).body;
    var after := classrooms[i := Enrol(classrooms[i], studentId)];
    assert after[i].code == code;
    assert CodeTaken(after, code);
    assert FindByCode(after, code).value == i;
  }

  /** A teacher who is also listed as a student is told "Already enrolled": that check comes first. */
  lemma EnrolmentCheckPrecedesTeacherCheck(classrooms: seq<Classroom>, code: string, teacherId: string)
    requires code != [] && teacherId != []
    requires FindByCode(classrooms, code).Some?
    requires var c := classrooms[FindByCode(classrooms, code).value];
      c.teacherId == teacherId && teacherId in c.studentIds
    ensures JoinDecision(classrooms, code, teacherId) == Refused(Response(400, "Already enrolled"))
  {
  }

  // ---------------------------------------------------------------------------
  // The delete owner check

  /** The checks of DELETE /:id: the class exists and the caller is its teacher. */
  function DeleteDecision(classrooms: seq<Classroom>, id: string, teacherId: string): (r: Reply<nat>)
    ensures FindById(classrooms, id).None? ==> r == Refused(Response(404, "Classroom not found"))
    ensures FindById(classrooms, id).Some? ==>
      var i := FindById(classrooms, id).value;
      && (classrooms[i].teacherId != teacherId ==> r == Refused(Response(401, "Not authorized")))
      && (classrooms[i].teacherId == teacherId ==> r == Sent(200, i))
  {
    match FindById(classrooms, id)
    case None => Refused(Response(404, "Classroom not found"))
    case Some(i) => if classrooms[i].teacherId != teacherId then Refused(Response(401, "Not authorized")) else Sent(200, i)
  }

  /** With no teacher id in the request, a delete is never authorised. */
  lemma DeleteWithoutTeacherRefused(classrooms: seq<Classroom>, id: string)
    requires StoreInvariant(classrooms)
    ensures DeleteDecision(classrooms, id, []).Refused?
  {
  }

  /** A delete removes the class with that id and keeps every other class, in order. */
  lemma DeleteRemovesOnlyTarget(classrooms: seq<Classroom>, id: string, teacherId: string)
    requires StoreInvariant(classrooms)
    requires DeleteDecision(classrooms, id, teacherId).Sent?
    ensures var i := DeleteDecision(classrooms, id, teacherId).body;
      var after := classrooms[..i] + classrooms[i + 1..];
      && StoreInvariant(after)
      && FindById(after, id).None?
      && (forall c :: c in classrooms && c.id != id ==> c in after)
      && |after| == |classrooms| - 1
  {
    var i := DeleteDecision(classrooms, id, teacherId).body;
    RemoveAtKeepsInvariant(classrooms, i);
    RemoveAtKeepsOthers(classrooms, i);
  }

  /** Removing the class at index i keeps the store invariant, and with unique ids no class with its id is left. */
  lemma RemoveAtKeepsInvariant(classrooms: seq<Classroom>, i: nat)
    requires StoreInvariant(classrooms) && i < |classrooms|
    ensures var after := classrooms[..i] + classrooms[i + 1..];
      StoreInvariant(after) && forall j :: 0 <= j < |after| ==> after[j].id != classrooms[i].id
  {
    var after := classrooms[..i] + classrooms[i + 1..];
    forall a, b | 0 <= a < b < |after|
      ensures after[a].code != after[b].code && after[a].id != after[b].id
    {
      var a', b' := if a < i then a else a + 1, if b < i then b else b + 1;
      assert after[a] == classrooms[a'] && after[b] == classrooms[b'];
    }
    forall j | 0 <= j < |after| ensures after[j].id != classrooms[i].id {
      var j' := if j < i then j else j + 1;
      assert after[j] == classrooms[j'];
    }
  }

  /** Removing the class at index i keeps every other class. */
  lemma RemoveAtKeepsOthers(classrooms: seq<Classroom>, i: nat)
    requires i < |classrooms|
    ensures forall c :: c in classrooms && c != classrooms[i] ==> c in classrooms[..i] + classrooms[i + 1..]
  {
    var after := classrooms[..i] + classrooms[i + 1..];
    forall c | c in classrooms && c != classrooms[i] ensures c in after {
      var k :| 0 <= k < |classrooms| && classrooms[k] == c;
      if k < i {
        assert after[k] == c;
      } else {
        assert after[k - 1] == c;
      }
    }
  }

  // ---------------------------------------------------------------------------
  // The store

  class ClassroomStore {
    var classrooms: seq<Classroom>

    ghost predicate Valid()
      reads this
    {
      StoreInvariant(classrooms)
    }

    constructor (persisted: seq<Classroom>)
      requires StoreInvariant(persisted)
      ensures Valid() && classrooms == persisted
    {
      classrooms := persisted;
    }

    /**
     * POST /: with all fields present, draw codes until one is free and save the new
     * class.  `draws` are the successive random draws; `newId` is the id the database
     * assigns.  `attempts` is the index of the draw that was used.
     */
    method Create(name: string, subject: string, teacherId: string, newId: string, draws: seq<nat>)
      returns (reply: Reply<Classroom>, attempts: nat)
      requires Valid()
      requires forall i :: 0 <= i < |draws| ==> draws[i] < 900000
      requires FindById(classrooms, newId).None?
      requires name != [] && subject != [] && teacherId != [] ==>
        exists i :: 0 <= i < |draws| && !CodeTaken(classrooms, GenerateCode(draws[i]))
      modifies this
      ensures Valid()
      ensures (name == [] || subject == [] || teacherId == []) ==>
        reply == Refused(Response(400, "Missing fields")) && classrooms == old(classrooms)
      ensures name != [] && subject != [] && teacherId != [] ==>
        && attempts < |draws|
        && (forall j :: 0 <= j < attempts ==> CodeTaken(old(classrooms), GenerateCode(draws[j])))
        && !CodeTaken(old(classrooms), GenerateCode(draws[attempts]))
        && reply == Sent(201, NewClassroom(newId, name, subject, teacherId, GenerateCode(draws[attempts])))
        && classrooms == old(classrooms) + [reply.body]
    {
      if name == [] || subject == [] || teacherId == [] {
        return Refused(Response(400, "Missing fields")), 0;
      }
      attempts := 0;
      var code := GenerateCode(draws[0]);
      while CodeTaken(classrooms, code)
        invariant 0 <= attempts < |draws| && code == GenerateCode(draws[attempts])
        invariant forall j :: 0 <= j < attempts ==> CodeTaken(classrooms, GenerateCode(draws[j]))
        invariant exists i :: attempts <= i < |draws| && !CodeTaken(classrooms, GenerateCode(draws[i]))
        decreases |draws| - attempts
      {
        attempts := attempts + 1;
        code := GenerateCode(draws[attempts]);
      }
      var c := NewClassroom(newId, name, subject, teacherId, code);
      AppendFreshKeepsInvariant(classrooms, c);
      classrooms := classrooms + [c];
      reply := Sent(201, c);
    }

    /** POST /join */
    method JoinByCode(code: string, studentId: string) returns (reply: Reply<Classroom>)
      requires Valid()
      modifies this
      ensures Valid()
      ensures JoinDecision(old(classrooms), code, studentId).Refused? ==>
        reply == Refused(JoinDecision(old(classrooms), code, studentId).response) && classrooms == old(classrooms)
      ensures JoinDecision(old(classrooms), code, studentId).Sent? ==>
        var i := JoinDecision(old(classrooms), code, studentId).body;
        classrooms == old(classrooms)[i := Enrol(old(classrooms)[i], studentId)] && reply == Sent(200, classrooms[i])
    {
      var decision := JoinDecision(classrooms, code, studentId);
      match decision
      case Refused(response) =>
        reply := Refused(response);
      case Sent(_, i) =>
        JoinEnrolsOnce(classrooms, code, studentId);
        var c := classrooms[i];
        c := c.(studentIds := c.studentIds + [studentId]);
        classrooms := classrooms[i := c];
        reply := Sent(200, c);
    }

    /** DELETE /:id */
    method Delete(id: string, teacherId: string) returns (response: Response)
      requires Valid()
      modifies this
      ensures Valid()
      ensures DeleteDecision(old(classrooms), id, teacherId).Refused? ==>
        response == DeleteDecision(old(classrooms), id, teacherId).response && classrooms == old(classrooms)
      ensures DeleteDecision(old(classrooms), id, teacherId).Sent? ==>
        var i := DeleteDecision(old(classrooms), id, teacherId).body;
        classrooms == old(classrooms)[..i] + old(classrooms)[i + 1..] && response == Response(200, "Ciassroom deleted")
    {
      var decision := DeleteDecision(classrooms, id, teacherId);
      match decision
      case Refused(r) =>
        response := r;
      case Sent(_, i) =>
        DeleteRemovesOnlyTarget(classrooms, id, teacherId);
        classrooms := classrooms[..i] + classrooms[i + 1..];
        response := Response(200, "Ciassroom deleted");
    }
  }
}

=== FILE: cleanup.dfy ===
/**
 * The once-a-minute sweep: find every assignment whose due date is before `now`,
 * and for each one delete its submissions and then the assignment itself.
 */
module Cleanup {
  import opened Records

  /** `Assignment.find({ dueDate: { $lt: now } })`, in store order. */
  function ExpiredOf(assignments: seq<Assignment>, now: int): (r: seq<Assignment>)
    ensures forall a :: a in r <==> a in assignments && a.dueDate < now
  {
    if assignments == [] then []
    else (if assignments[0].dueDate < now then [assignments[0]] else []) + ExpiredOf(assignments[1..], now)
  }

  /** The assignments a sweep leaves: those due at `now` or later, in store order. */
  function KeepUnexpired(assignments: seq<Assignment>, now: int): (r: seq<Assignment>)
    ensures forall a :: a in r <==> a in assignments && a.dueDate >= now
  {
    if assignments == [] then []
    else (if assignments[0].dueDate >= now then [assignments[0]] else []) + KeepUnexpired(assignments[1..], now)
  }

  /** The ids of the assignments that are past due at `now`. */
  function ExpiredIds(assignments: seq<Assignment>, now: int): set<string> {
    set a | a in assignments && a.dueDate < now :: a.id
  }

  function IdsOf(assignments: seq<Assignment>): set<string> {
    set a | a in assignments :: a.id
  }

  /** The assignments whose id is not in `ids`, in order. */
  function WithoutIds(assignments: seq<Assignment>, ids: set<string>): (r: seq<Assignment>)
    ensures forall a :: a in r <==> a in assignments && a.id !in ids
  {
    if assignments == [] then []
    else (if assignments[0].id in ids then [] else [assignments[0]]) + WithoutIds(assignments[1..], ids)
  }

  /** The submissions whose assignment id is not in `ids`, in order. */
  function WithoutSubmissionsOf(subs: seq<Submission>, ids: set<string>): (r: seq<Submission>)
    ensures forall s :: s in r <==> s in subs && s.assignmentId !in ids
  {
    if subs == [] then []
    else (if subs[0].assignmentId in ids then [] else [subs[0]]) + WithoutSubmissionsOf(subs[1..], ids)
  }

  lemma {:induction false} WithoutNoIds(assignments: seq<Assignment>)
    ensures WithoutIds(assignments, {}) == assignments
  {
    if assignments != [] {
      WithoutNoIds(assignments[1..]);
      assert assignments == [assignments[0]] + assignments[1..];
    }
  }

  lemma {:induction false} WithoutNoSubmissionIds(subs: seq<Submission>)
    ensures WithoutSubmissionsOf(subs, {}) == subs
  {
    if subs != [] {
      WithoutNoSubmissionIds(subs[1..]);
      assert subs == [subs[0]] + subs[1..];
    }
  }

  lemma IdsOfPrefix(xs: seq<Assignment>, i: nat)
    requires i < |xs|
    ensures IdsOf(xs[..i + 1]) == IdsOf(xs[..i]) + {xs[i].id}
  {
    assert xs[..i + 1] == xs[..i] + [xs[i]];
    IdsOfSnoc(xs[..i], xs[i]);
  }

  lemma IdsOfSnoc(xs: seq<Assignment>, x: Assignment)
    ensures IdsOf(xs + [x]) == IdsOf(xs) + {x.id}
  {
    assert x in xs + [x];
    forall id | id in IdsOf(xs + [x]) ensures id in IdsOf(xs) + {x.id} {
      var a :| a in xs + [x] && a.id == id;
      if a != x {
        assert a in xs;
      }
    }
    forall id | id in IdsOf(xs) ensures id in IdsOf(xs + [x]) {
      var a :| a in xs && a.id == id;
      assert a in xs + [x];
    }
  }

  lemma IdsOfExpired(assignments: seq<Assignment>, now: int)
    ensures IdsOf(ExpiredOf(assignments, now)) == ExpiredIds(assignments, now)
  {
    var e := ExpiredOf(assignments, now);
    forall id | id in ExpiredIds(assignments, now) ensures id in IdsOf(e) {
      var a :| a in assignments && a.dueDate < now && a.id == id;
      assert a in e;
    }
  }

  /** Deleting one more id from an already filtered list is filtering by one more id. */
  lemma {:induction false} DropAssignmentStep(assignments: seq<Assignment>, ids: set<string>, id: string)
    ensures DropAssignment(WithoutIds(assignments, ids), id) == WithoutIds(assignments, ids + {id})
  {
    if assignments != [] {
      DropAssignmentStep(assignments[1..], ids, id);
      var w := WithoutIds(assignments, ids);
      if assignments[0].id !in ids {
        assert w[1..] == WithoutIds(assignments[1..], ids);
      } else {
        assert w == WithoutIds(assignments[1..], ids);
      }
    }
  }

  lemma {:induction false} DropSubmissionsStep(subs: seq<Submission>, ids: set<string>, id: string)
    ensures DropSubmissionsOf(WithoutSubmissionsOf(subs, ids), id) == WithoutSubmissionsOf(subs, ids + {id})
  {
    if subs != [] {
      DropSubmissionsStep(subs[1..], ids, id);
      var w := WithoutSubmissionsOf(subs, ids);
      if subs[0].assignmentId !in ids {
        assert w[1..] == WithoutSubmissionsOf(subs[1..], ids);
      } else {
        assert w == WithoutSubmissionsOf(subs[1..], ids);
      }
    }
  }

  /** With unique ids, removing the ids of the expired assignments removes exactly the expired assignments. */
  lemma {:induction false} WithoutExpiredIds(assignments: seq<Assignment>, now: int)
    requires UniqueAssignmentIds(assignments)
    ensures WithoutIds(assignments, ExpiredIds(assignments, now)) == KeepUnexpired(assignments, now)
  {
    if assignments != [] {
      var x, rest := assignments[0], assignments[1..];
      assert assignments == [x] + rest;
      UniqueTail(assignments);
      WithoutExpiredIds(rest, now);
      var e, e' := ExpiredIds(assignments, now), ExpiredIds(rest, now);
      assert e == e' + (if x.dueDate < now then {x.id} else {});
      assert x.id in e <==> x.dueDate < now;
      ForeignIdsIgnored(rest, e', e - e');
      assert e' + (e - e') == e;
    }
  }

  /** Below unique ids, the tail is unique too and does not reuse the head's id. */
  lemma UniqueTail(assignments: seq<Assignment>)
    requires UniqueAssignmentIds(assignments) && assignments != []
    ensures UniqueAssignmentIds(assignments[1..])
    ensures forall a :: a in assignments[1..] ==> a.id != assignments[0].id
  {
    var rest := assignments[1..];
    forall i, j | 0 <= i < j < |rest| ensures rest[i].id != rest[j].id {
      assert rest[i] == assignments[i + 1] && rest[j] == assignments[j + 1];
    }
    forall a | a in rest ensures a.id != assignments[0].id {
      var k :| 0 <= k < |rest| && rest[k] == a;
      assert assignments[k + 1] == a;
    }
  }

  lemma {:induction false} ForeignIdsIgnored(assignments: seq<Assignment>, ids: set<string>, extra: set<string>)
    requires forall a :: a in assignments ==> a.id !in extra
    ensures WithoutIds(assignments, ids + extra) == WithoutIds(assignments, ids)
  {
    if assignments != [] {
      assert assignments[0] in assignments;
      forall a | a in assignments[1..] ensures a.id !in extra {
        assert a in assignments;
      }
      ForeignIdsIgnored(assignments[1..], ids, extra);
    }
  }

  /**
   * The cron job's body: one `deleteMany` of the submissions and one delete of the
   * assignment per expired assignment, in the order the query returned them.
   */
  method Sweep(assignments: seq<Assignment>, submissions: seq<Submission>, now: int)
    returns (remaining: seq<Assignment>, kept: seq<Submission>)
    requires UniqueAssignmentIds(assignments)
    ensures remaining == KeepUnexpired(assignments, now)
    ensures kept == WithoutSubmissionsOf(submissions, ExpiredIds(assignments, now))
  {
    var expired := ExpiredOf(assignments, now);
    remaining, kept := assignments, submissions;
    ghost var done: set<string> := {};
    WithoutNoIds(assignments);
    WithoutNoSubmissionIds(submissions);
    assert IdsOf(expired[..0]) == {};
    for i := 0 to |expired|
      invariant done == IdsOf(expired[..i])
      invariant remaining == WithoutIds(assignments, done)
      invariant kept == WithoutSubmissionsOf(submissions, done)
    {
      var id := expired[i].id;
      DropSubmissionsStep(submissions, done, id);
      DropAssignmentStep(assignments, done, id);
      kept := DropSubmissionsOf(kept, id);
      remaining := DropAssignment(remaining, id);
      IdsOfPrefix(expired, i);
      done := done + {id};
    }
    assert expired[..|expired|] == expired;
    IdsOfExpired(assignments, now);
    WithoutExpiredIds(assignments, now);
  }

  /**
   * What a sweep leaves: no assignment due before `now`; no submission for an
   * assignment it removed; every assignment due at `now` or later, and every other
   * submission, still there.
   */
  lemma SweepOutcome(assignments: seq<Assignment>, submissions: seq<Submission>, now: int)
    ensures forall a :: a in KeepUnexpired(assignments, now) ==> a.dueDate >= now
    ensures forall a :: a in assignments && a.dueDate >= now ==> a in KeepUnexpired(assignments, now)
    ensures forall s, a :: (s in WithoutSubmissionsOf(submissions, ExpiredIds(assignments, now))
                            && a in assignments && a.dueDate < now) ==> s.assignmentId != a.id
    ensures forall s :: s in submissions && s.assignmentId !in ExpiredIds(assignments, now) ==>
                          s in WithoutSubmissionsOf(submissions, ExpiredIds(assignments, now))
  {
  }

  /** A second sweep at the same `now` finds nothing to delete. */
  lemma SecondSweepDeletesNothing(assignments: seq<Assignment>, submissions: seq<Submission>, now: int)
    ensures var as1 := KeepUnexpired(assignments, now);
      var ss1 := WithoutSubmissionsOf(submissions, ExpiredIds(assignments, now));
      && ExpiredIds(as1, now) == {}
      && KeepUnexpired(as1, now) == as1
      && WithoutSubmissionsOf(ss1, ExpiredIds(as1, now)) == ss1
  {
    var as1 := KeepUnexpired(assignments, now);
    var ss1 := WithoutSubmissionsOf(submissions, ExpiredIds(assignments, now));
    KeepUnexpiredIdempotent(as1, now);
    WithoutNoSubmissionIds(ss1);
  }

  lemma {:induction false} KeepUnexpiredIdempotent(assignments: seq<Assignment>, now: int)
    requires forall a :: a in assignments ==> a.dueDate >= now
    ensures KeepUnexpired(assignments, now) == assignments
  {
    if assignments != [] {
      assert assignments[0] in assignments;
      forall a | a in assignments[1..] ensures a.dueDate >= now {
        assert a in assignments;
      }
      KeepUnexpiredIdempotent(assignments[1..], now);
      assert assignments == [assignments[0]] + assignments[1..];
    }
  }
}

=== FILE: records.dfy ===
/**
 * Record shapes of the persisted collections (classrooms, assignments, submissions),
 * with the schema defaults that matter to the routes, and the two store filters that
 * both the assignment delete route and the expiry sweep use.
 * Object ids and user ids are opaque strings; dates are integer timestamps.
 */
module Records {
  import opened Wrappers

  /** The two values of a user's role. */
  const TeacherRole := "teacher"
  const StudentRole := "student"

  /** A classroom document; `isActive` defaults to false and `studentIds` starts empty. */
  datatype Classroom = Classroom(
    id: string,
    name: string,
    subject: string,
    teacherId: string,
    studentIds: seq<string>,
    code: string,
    isActive: bool)

  /** An assignment document; `fileUrl` is null when no file was attached. */
  datatype Assignment = Assignment(
    id: string,
    title: string,
    description: string,
    dueDate: int,
    classroomId: string,
    fileUrl: Option<string>,
    createdAt: int)

  /** A submission document; `grade` defaults to null and `feedback` to the empty string. */
  datatype Submission = Submission(
    id: string,
    assignmentId: string,
    studentId: string,
    content: string,
    fileUrl: Option<string>,
    grade: Option<int>,
    feedback: string)

  /** Deleting every submission of one assignment (`Submission.deleteMany({ assignmentId })`). */
  function DropSubmissionsOf(subs: seq<Submission>, assignmentId: string): (r: seq<Submission>)
    ensures forall s :: s in r <==> s in subs && s.assignmentId != assignmentId
    ensures |r| <= |subs|
  {
    if subs == [] then []
    else (if subs[0].assignmentId == assignmentId then [] else [subs[0]])
         + DropSubmissionsOf(subs[1..], assignmentId)
  }

  /** Deleting the assignment document with the given id. */
  function DropAssignment(assignments: seq<Assignment>, id: string): (r: seq<Assignment>)
    ensures forall a :: a in r <==> a in assignments && a.id != id
    ensures |r| <= |assignments|
  {
    if assignments == [] then []
    else (if assignments[0].id == id then [] else [assignments[0]])
         + DropAssignment(assignments[1..], id)
  }

  /** Document ids are unique within a collection. */
  predicate UniqueAssignmentIds(assignments: seq<Assignment>) {
    forall i, j :: 0 <= i < j < |assignments| ==> assignments[i].id != assignments[j].id
  }
}

/** The shape of an HTTP reply: a status code and the `message` field of its JSON body. */
module Http {
  datatype Response = Response(status: nat, message: string)

  /** A route's answer: a refusal with a message, or a success status with a body. */
  datatype Reply<T> = Refused(response: Response) | Sent(status: nat, body: T)
}

=== FILE: resource_routes.dfy ===
/**
 * The assignment routes: creating an assignment (optionally with a file) whose due
 * date is not in the past, deleting an assignment together with its submissions,
 * and listing a classroom's assignments newest first.
 */
module ResourceRoutes {
  import opened Wrappers
  import opened Records
  import opened Http
  import opened Upload
  import opened SubmissionRoutes

  /** The form of a create request; a missing or empty due date is None. */
  datatype AssignmentRequest = AssignmentRequest(
    classroomId: string,
    title: string,
    description: string,
    dueDate: Option<int>,
    file: Option<IncomingFile>,
    protocol: string,
    host: string)

  /**
   * POST /api/classrooms/:classroomId/assignments, in order: the upload, a due date,
   * a due date not before `now`; then the assignment is saved, created at `now`.
   * `newId` is the id the database assigns.
   */
  function CreateAssignment(assignments: seq<Assignment>, req: AssignmentRequest, now: int, newId: string)
    : (result: (Reply<Assignment>, seq<Assignment>))
    requires now >= 0
    ensures result.0.Refused? ==> result.1 == assignments
    ensures result.0.Sent? ==> result.0.status == 201 && result.1 == assignments + [result.0.body]
    ensures Receive(req.file, now).Failed? ==>
      result.0 == Refused(UploadErrorResponse(Receive(req.file, now).err))
    ensures !Receive(req.file, now).Failed? && req.dueDate.None? ==>
      result.0 == Refused(Response(400, "Due date is required"))
    ensures (!Receive(req.file, now).Failed? && req.dueDate.Some?) ==>
      (result.0 == Refused(Response(400, "Due date cannot be in the past")) <==> req.dueDate.value < now)
    ensures (!Receive(req.file, now).Failed? && req.dueDate.Some? && req.dueDate.value >= now) ==> result.0.Sent?
  {
    var upload := Receive(req.file, now);
    if upload.Failed? then (Refused(UploadErrorResponse(upload.err)), assignments)
    else if req.dueDate.None? then (Refused(Response(400, "Due date is required")), assignments)
    else if req.dueDate.value < now then (Refused(Response(400, "Due date cannot be in the past")), assignments)
    else
      var a := Assignment(newId, req.title, req.description, req.dueDate.value, req.classroomId,
                          UploadedUrl(upload, req.protocol, req.host), now);
      (Sent(201, a), assignments + [a])
  }

  /** A created assignment belongs to the route's classroom, is due no earlier than now, and has a file URL exactly when a file was stored. */
  lemma CreatedAssignmentFields(assignments: seq<Assignment>, req: AssignmentRequest, now: int, newId: string)
    requires now >= 0
    requires CreateAssignment(assignments, req, now, newId).0.Sent?
    ensures var a := CreateAssignment(assignments, req, now, newId).0.body;
      && a.classroomId == req.classroomId
      && req.dueDate == Some(a.dueDate) && a.dueDate >= now
      && (a.fileUrl.None? <==> req.file.None?)
      && a.createdAt == now
  {
  }

  /** The due-date check admits a due date equal to now and refuses one a moment earlier. */
  lemma DueDateBoundary(assignments: seq<Assignment>, req: AssignmentRequest, now: int, newId: string)
    requires now >= 1 && !Receive(req.file, now).Failed?
    ensures CreateAssignment(assignments, req.(dueDate := Some(now)), now, newId).0.Sent?
    ensures CreateAssignment(assignments, req.(dueDate := Some(now - 1)), now, newId).0
      == Refused(Response(400, "Due date cannot be in the past"))
  {
    assert Receive(req.(dueDate := Some(now)).file, now) == Receive(req.file, now);
  }

  /**
   * DELETE /api/classrooms/:classroomId/assignments/:id: a missing assignment is a
   * 404 and nothing is deleted; otherwise the assignment and every submission for
   * it are deleted.  The classroom in the path is not consulted.
   */
  function DeleteAssignment(assignments: seq<Assignment>, subs: seq<Submission>, id: string)
    : (result: (Response, seq<Assignment>, seq<Submission>))
    ensures FindAssignment(assignments, id).None? ==> result == (Response(404, "Assignment not found"), assignments, subs)
    ensures FindAssignment(assignments, id).Some? ==> result.0 == Response(200, "Assignment deleted")
  {
    if FindAssignment(assignments, id).None? then (Response(404, "Assignment not found"), assignments, subs)
    else (Response(200, "Assignment deleted"), DropAssignment(assignments, id), DropSubmissionsOf(subs, id))
  }

  /** After a delete, no assignment with that id and no submission for it remain, and every other record is kept. */
  lemma DeleteCascades(assignments: seq<Assignment>, subs: seq<Submission>, id: string)
    requires FindAssignment(assignments, id).Some?
    ensures var (_, as', ss') := DeleteAssignment(assignments, subs, id);
      && (forall a :: a in as' <==> a in assignments && a.id != id)
      && (forall s :: s in ss' <==> s in subs && s.assignmentId != id)
  {
  }

  /** A delete of an unknown id leaves submissions that name that id in place. */
  lemma UnknownDeleteKeepsOrphans(assignments: seq<Assignment>, subs: seq<Submission>, id: string)
    requires forall a :: a in assignments ==> a.id != id
    ensures DeleteAssignment(assignments, subs, id) == (Response(404, "Assignment not found"), assignments, subs)
  {
    assert FindAssignment(assignments, id).None?;
  }

  // ---------------------------------------------------------------------------
  // Listing

  function OfClassroom(assignments: seq<Assignment>, classroomId: string): (r: seq<Assignment>)
    ensures forall a :: a in r <==> a in assignments && a.classroomId == classroomId
    ensures multiset(r) <= multiset(assignments)
    ensures forall a: Assignment :: a.classroomId == classroomId ==> multiset(r)[a] == multiset(assignments)[a]
  {
    if assignments == [] then []
    else
      assert assignments == [assignments[0]] + assignments[1..];
      (if assignments[0].classroomId == classroomId then [assignments[0]] else [])
      + OfClassroom(assignments[1..], classroomId)
  }

  predicate NewestFirst(s: seq<Assignment>) {
    forall i, j :: 0 <= i < j < |s| ==> s[i].createdAt >= s[j].createdAt
  }

  function InsertByAge(a: Assignment, s: seq<Assignment>): seq<Assignment> {
    if s == [] || a.createdAt >= s[0].createdAt then [a] + s
    else [s[0]] + InsertByAge(a, s[1..])
  }

  function SortNewestFirst(s: seq<Assignment>): seq<Assignment> {
    if s == [] then [] else InsertByAge(s[0], SortNewestFirst(s[1..]))
  }

  /** GET /api/classrooms/:classroomId/assignments: that classroom's assignments, sorted by creation time, newest first. */
  function ListAssignments(assignments: seq<Assignment>, classroomId: string): seq<Assignment> {
    SortNewestFirst(OfClassroom(assignments, classroomId))
  }

  lemma {:induction false} InsertByAgePermutes(a: Assignment, s: seq<Assignment>)
    ensures multiset(InsertByAge(a, s)) == multiset(s) + multiset{a}
    ensures forall x :: x in InsertByAge(a, s) <==> x == a || x in s
  {
    if s != [] && a.createdAt < s[0].createdAt {
      InsertByAgePermutes(a, s[1..]);
      assert s == [s[0]] + s[1..];
    }
  }

  lemma {:induction false} InsertByAgeSorted(a: Assignment, s: seq<Assignment>)
    requires NewestFirst(s)
    ensures NewestFirst(InsertByAge(a, s))
  {
    var r := InsertByAge(a, s);
    if s == [] {
    } else if a.createdAt >= s[0].createdAt {
      forall i, j | 0 <= i < j < |r| ensures r[i].createdAt >= r[j].createdAt {
        if i > 0 {
          assert r[i] == s[i - 1] && r[j] == s[j - 1];
        } else {
          assert r[j] == s[j - 1];
        }
      }
    } else {
      var rest := InsertByAge(a, s[1..]);
      InsertByAgeSorted(a, s[1..]);
      InsertByAgePermutes(a, s[1..]);
      assert r == [s[0]] + rest;
      forall i, j | 0 <= i < j < |r| ensures r[i].createdAt >= r[j].createdAt {
        if i == 0 {
          assert r[j] == rest[j - 1];
          assert r[j] in rest;
          if r[j] != a {
            var k :| 0 <= k < |s[1..]| && s[1..][k] == r[j];
            assert s[k + 1] == r[j];
          }
        } else {
          assert r[i] == rest[i - 1] && r[j] == rest[j - 1];
        }
      }
    }
  }

  lemma {:induction false} SortNewestFirstCorrect(s: seq<Assignment>)
    ensures NewestFirst(SortNewestFirst(s))
    ensures multiset(SortNewestFirst(s)) == multiset(s)
  {
    if s != [] {
      SortNewestFirstCorrect(s[1..]);
      InsertByAgeSorted(s[0], SortNewestFirst(s[1..]));
      InsertByAgePermutes(s[0], SortNewestFirst(s[1..]));
      assert s == [s[0]] + s[1..];
    }
  }

  /** The listing holds exactly the classroom's assignments, each as often as stored, newest first. */
  lemma ListAssignmentsCorrect(assignments: seq<Assignment>, classroomId: string)
    ensures var r := ListAssignments(assignments, classroomId);
      && NewestFirst(r)
      && multiset(r) == multiset(OfClassroom(assignments, classroomId))
      && (forall a: Assignment :: a.classroomId == classroomId ==> multiset(r)[a] == multiset(assignments)[a])
      && (forall a :: a in r <==> a in assignments && a.classroomId == classroomId)
  {
    var f := OfClassroom(assignments, classroomId);
    SortNewestFirstCorrect(f);
    var r := ListAssignments(assignments, classroomId);
    forall a ensures a in r <==> a in f {
      assert a in r <==> a in multiset(r);
      assert a in f <==> a in multiset(f);
    }
  }
}

=== FILE: room_layout.dfy ===
/**
 * The room page's derived layout, recomputed on every render: the order of the remote
 * peers (teachers first), the list of student tiles, the pagination of that list
 * (page 0 is the teacher's stage, then nine students per page) and the order of the
 * participants panel (teachers, then raised hands, then by name).
 */
module RoomLayout {
  import opened Wrappers
  import opened Records

  /** What the page knows about one connection, keyed by socket id. */
  datatype Participant = Participant(name: string, userId: string, role: string, isMuted: bool, isVideoOff: bool)

  /** A tile of the student grid: the local user, or a remote peer by its socket id. */
  datatype Tile = SelfTile(id: string) | RemoteTile(peerID: string)

  // ---------------------------------------------------------------------------
  // Pagination

  const StudentsPerPage: nat := 9

  function AtLeastOne(n: nat): nat {
    if n < 1 then 1 else n
  }

  /** `Math.ceil(Math.max(n, 1) / STUDENTS_PER_PAGE)`: the fewest pages of nine that hold max(n, 1) tiles. */
  function TotalStudentPages(studentCount: nat): (pages: nat)
    ensures pages >= 1
    ensures (pages - 1) * StudentsPerPage < AtLeastOne(studentCount) <= pages * StudentsPerPage
  {
    (AtLeastOne(studentCount) + StudentsPerPage - 1) / StudentsPerPage
  }

  /** Page 0 is the teacher's stage, so there is always one page more than student pages. */
  function TotalPages(studentCount: nat): (pages: nat)
    ensures pages >= 2
  {
    1 + TotalStudentPages(studentCount)
  }

  /** `setPage(p => Math.min(p + 1, totalPages - 1))` */
  function NextPage(page: int, totalPages: int): int {
    if page + 1 < totalPages - 1 then page + 1 else totalPages - 1
  }

  /** `setPage(p => Math.max(p - 1, 0))` */
  function PrevPage(page: int): int {
    if page - 1 > 0 then page - 1 else 0
  }

  /** `Math.floor(idx / STUDENTS_PER_PAGE) + 1`: the 1-based page of the idx-th student tile. */
  function StudentPage(idx: nat): (page: nat)
    ensures page >= 1
    ensures (page - 1) * StudentsPerPage <= idx < page * StudentsPerPage
  {
    idx / StudentsPerPage + 1
  }

  /** Next and previous keep a page that is in range in range, moving by at most one page. */
  lemma PagingStaysInRange(page: int, studentCount: nat)
    requires 0 <= page < TotalPages(studentCount)
    ensures var total := TotalPages(studentCount);
      && 0 <= NextPage(page, total) < total && page <= NextPage(page, total) <= page + 1
      && 0 <= PrevPage(page) < total && page - 1 <= PrevPage(page) <= page
  {
  }

  /** Whatever the page, next never passes the last page and previous never goes below 0. */
  lemma PagingClamps(page: int, studentCount: nat)
    ensures NextPage(page, TotalPages(studentCount)) <= TotalPages(studentCount) - 1
    ensures PrevPage(page) >= 0
  {
  }

  /** Every student tile lands on one of the student pages 1..totalStudentPages. */
  lemma StudentPageInRange(idx: nat, studentCount: nat)
    requires idx < studentCount
    ensures 1 <= StudentPage(idx) <= TotalStudentPages(studentCount)
  {
    var t := TotalStudentPages(studentCount);
    assert idx < t * StudentsPerPage;
  }

  /** Page k holds exactly the tiles 9(k-1) .. 9k-1, so at most nine of them. */
  lemma StudentPageWindow(idx: nat, k: nat)
    requires k >= 1
    ensures StudentPage(idx) == k <==> (k - 1) * StudentsPerPage <= idx < k * StudentsPerPage
  {
    var p := StudentPage(idx);
    if p < k {
      assert p * StudentsPerPage <= (k - 1) * StudentsPerPage;
    } else if p > k {
      assert k * StudentsPerPage <= (p - 1) * StudentsPerPage;
    }
  }

  /** With at least one student tile, no student page is empty. */
  lemma NoEmptyStudentPage(k: nat, studentCount: nat)
    requires studentCount >= 1 && 1 <= k <= TotalStudentPages(studentCount)
    ensures (k - 1) * StudentsPerPage < studentCount && StudentPage((k - 1) * StudentsPerPage) == k
  {
    var t := TotalStudentPages(studentCount);
    assert (k - 1) * StudentsPerPage <= (t - 1) * StudentsPerPage;
    StudentPageWindow((k - 1) * StudentsPerPage, k);
  }

  // ---------------------------------------------------------------------------
  // Peer order and the student tiles

  predicate IsTeacherPeer(participants: map<string, Participant>, peerID: string) {
    peerID in participants && participants[peerID].role == TeacherRole
  }

  function TeacherPeers(peers: seq<string>, participants: map<string, Participant>): (r: seq<string>)
    ensures forall p :: p in r <==> p in peers && IsTeacherPeer(participants, p)
  {
    if peers == [] then []
    else TeacherPeers(peers[..|peers| - 1], participants)
         + (if IsTeacherPeer(participants, peers[|peers| - 1]) then [peers[|peers| - 1]] else [])
  }

  function StudentPeers(peers: seq<string>, participants: map<string, Participant>): (r: seq<string>)
    ensures forall p :: p in r <==> p in peers && !IsTeacherPeer(participants, p)
  {
    if peers == [] then []
    else StudentPeers(peers[..|peers| - 1], participants)
         + (if IsTeacherPeer(participants, peers[|peers| - 1]) then [] else [peers[|peers| - 1]])
  }

  /**
   * `sortedPeers`: a stable sort whose comparator puts a teacher before anyone else;
   * teachers first, then every other peer in its original order.
   */
  function SortedPeers(peers: seq<string>, participants: map<string, Participant>): seq<string> {
    TeacherPeers(peers, participants) + StudentPeers(peers, participants)
  }

  /** The remote tiles of `allStudents`: every peer whose participant is not a teacher, in order. */
  function StudentTiles(peers: seq<string>, participants: map<string, Participant>): seq<Tile> {
    if peers == [] then []
    else StudentTiles(peers[..|peers| - 1], participants)
         + (if IsTeacherPeer(participants, peers[|peers| - 1]) then [] else [RemoteTile(peers[|peers| - 1])])
  }

  /** `allStudents`: the local user's tile first unless the user is a teacher, then the remote students. */
  method AllStudents(selfIsTeacher: bool, selfId: string, sortedPeers: seq<string>, participants: map<string, Participant>)
    returns (tiles: seq<Tile>)
    ensures tiles == (if selfIsTeacher then [] else [SelfTile(selfId)]) + StudentTiles(sortedPeers, participants)
  {
    tiles := [];
    if !selfIsTeacher {
      tiles := tiles + [SelfTile(selfId)];
    }
    ghost var head := tiles;
    for i := 0 to |sortedPeers|
      invariant tiles == head + StudentTiles(sortedPeers[..i], participants)
    {
      assert sortedPeers[..i + 1][..i] == sortedPeers[..i];
      if !IsTeacherPeer(participants, sortedPeers[i]) {
        tiles := tiles + [RemoteTile(sortedPeers[i])];
      }
    }
    assert sortedPeers[..|sortedPeers|] == sortedPeers;
  }

  lemma {:induction false} StudentTilesMembers(peers: seq<string>, participants: map<string, Participant>)
    ensures forall t :: t in StudentTiles(peers, participants) <==>
      t.RemoteTile? && t.peerID in peers && !IsTeacherPeer(participants, t.peerID)
  {
    if peers != [] {
      var init := peers[..|peers| - 1];
      StudentTilesMembers(init, participants);
      assert peers == init + [peers[|peers| - 1]];
    }
  }

  lemma {:induction false} StudentTilesAppend(a: seq<string>, b: seq<string>, participants: map<string, Participant>)
    ensures StudentTiles(a + b, participants) == StudentTiles(a, participants) + StudentTiles(b, participants)
    decreases |b|
  {
    if b == [] {
      assert a + b == a;
    } else {
      var init := b[..|b| - 1];
      assert (a + b)[..|a + b| - 1] == a + init;
      StudentTilesAppend(a, init, participants);
    }
  }

  lemma {:induction false} StudentTilesOfTeachers(peers: seq<string>, participants: map<string, Participant>)
    ensures StudentTiles(TeacherPeers(peers, participants), participants) == []
  {
    if peers != [] {
      var init := peers[..|peers| - 1];
      var last := peers[|peers| - 1];
      var ti := TeacherPeers(init, participants);
      StudentTilesOfTeachers(init, participants);
      if IsTeacherPeer(participants, last) {
        assert TeacherPeers(peers, participants) == ti + [last];
        StudentTilesAppend(ti, [last], participants);
        assert [last][..0] == [];
        assert StudentTiles([last], participants) == [];
      } else {
        assert TeacherPeers(peers, participants) == ti;
      }
    }
  }

  lemma {:induction false} StudentTilesOfStudents(peers: seq<string>, participants: map<string, Participant>)
    ensures StudentTiles(StudentPeers(peers, participants), participants) == StudentTiles(peers, participants)
  {
    if peers != [] {
      var init := peers[..|peers| - 1];
      var last := peers[|peers| - 1];
      var si := StudentPeers(init, participants);
      StudentTilesOfStudents(init, participants);
      assert peers[..|peers| - 1] == init;
      if !IsTeacherPeer(participants, last) {
        assert StudentPeers(peers, participants) == si + [last];
        StudentTilesAppend(si, [last], participants);
        assert [last][..0] == [];
        assert StudentTiles([last], participants) == [RemoteTile(last)];
        assert StudentTiles(peers, participants) == StudentTiles(init, participants) + [RemoteTile(last)];
      } else {
        assert StudentPeers(peers, participants) == si;
        assert StudentTiles(peers, participants) == StudentTiles(init, participants);
      }
    }
  }

  /**
   * The student grid: the local tile is present exactly when the user is not a teacher,
   * and then comes first; a remote tile is present exactly for the peers whose
   * participant is not a teacher; and the teachers-first sort does not change the
   * order of the remote student tiles.
   */
  lemma AllStudentsContents(selfIsTeacher: bool, selfId: string, peers: seq<string>, participants: map<string, Participant>)
    ensures var tiles := (if selfIsTeacher then [] else [SelfTile(selfId)])
                         + StudentTiles(SortedPeers(peers, participants), participants);
      && tiles == (if selfIsTeacher then [] else [SelfTile(selfId)]) + StudentTiles(peers, participants)
      && (SelfTile(selfId) in tiles <==> !selfIsTeacher)
      && (!selfIsTeacher ==> tiles[0] == SelfTile(selfId))
      && (forall p :: RemoteTile(p) in tiles <==> p in peers && !IsTeacherPeer(participants, p))
  {
    StudentTilesAppend(TeacherPeers(peers, participants), StudentPeers(peers, participants), participants);
    StudentTilesOfTeachers(peers, participants);
    StudentTilesOfStudents(peers, participants);
    StudentTilesMembers(peers, participants);
  }

  /** The teachers-first order is a reordering of the peers that puts every teacher before every other peer. */
  lemma SortedPeersTeachersFirst(peers: seq<string>, participants: map<string, Participant>)
    ensures var sorted := SortedPeers(peers, participants);
      && (forall p :: p in sorted <==> p in peers)
      && forall i, j :: 0 <= i < j < |sorted| && IsTeacherPeer(participants, sorted[j]) ==>
           IsTeacherPeer(participants, sorted[i])
  {
    var t := TeacherPeers(peers, participants);
    var s := SortedPeers(peers, participants);
    forall k | |t| <= k < |s| ensures !IsTeacherPeer(participants, s[k]) {
      assert s[k] in StudentPeers(peers, participants);
    }
    forall k | 0 <= k < |t| ensures IsTeacherPeer(participants, s[k]) {
      assert s[k] in t;
    }
  }

  /** `teacherPeer`: the local user when a teacher, otherwise the first remote teacher in sortedPeers, if any. */
  function TeacherTile(selfIsTeacher: bool, selfId: string, sortedPeers: seq<string>, participants: map<string, Participant>): (r: Option<Tile>)
    ensures selfIsTeacher ==> r == Some(SelfTile(selfId))
    ensures !selfIsTeacher && r.Some? ==> r.value.RemoteTile? && r.value.peerID in sortedPeers && IsTeacherPeer(participants, r.value.peerID)
    ensures !selfIsTeacher && r.None? ==> forall p :: p in sortedPeers ==> !IsTeacherPeer(participants, p)
    ensures !selfIsTeacher && r.Some? ==>
      exists i :: 0 <= i < |sortedPeers| && sortedPeers[i] == r.value.peerID &&
        forall j :: 0 <= j < i ==> !IsTeacherPeer(participants, sortedPeers[j])
  {
    if selfIsTeacher then Some(SelfTile(selfId))
    else if sortedPeers == [] then None
    else if IsTeacherPeer(participants, sortedPeers[0]) then Some(RemoteTile(sortedPeers[0]))
    else
      var r := TeacherTile(false, selfId, sortedPeers[1..], participants);
      if r.Some? then
        var i :| 0 <= i < |sortedPeers[1..]| && sortedPeers[1..][i] == r.value.peerID &&
          forall j :: 0 <= j < i ==> !IsTeacherPeer(participants, sortedPeers[1..][j]);
        assert sortedPeers[i + 1] == r.value.peerID;
        assert forall j :: 0 <= j < i + 1 ==> !IsTeacherPeer(participants, sortedPeers[j]) by {
          forall j | 0 <= j < i + 1 ensures !IsTeacherPeer(participants, sortedPeers[j]) {
            if j > 0 { assert sortedPeers[j] == sortedPeers[1..][j - 1]; }
          }
        }
        r
      else r
  }

  // ---------------------------------------------------------------------------
  // The participants panel order

  datatype ParticipantEntry = ParticipantEntry(socketId: string, participant: Participant)

  /** `a.localeCompare(b)`, taken as the code-point order of the two strings. */
  function LocaleCompare(a: string, b: string): (r: int)
    ensures -1 <= r <= 1
    ensures r == 0 <==> a == b
  {
    if a == [] && b == [] then 0
    else if a == [] then -1
    else if b == [] then 1
    else if a[0] < b[0] then -1
    else if a[0] > b[0] then 1
    else
      var r := LocaleCompare(a[1..], b[1..]);
      assert a == [a[0]] + a[1..] && b == [b[0]] + b[1..];
      r
  }

  function RoleRank(p: Participant): int {
    if p.role == TeacherRole then 1 else 0
  }

  function HandRank(p: Participant, raisedHands: set<string>): int {
    if p.userId in raisedHands then 1 else 0
  }

  /** The comparator of the participants panel. */
  function CompareParticipants(a: Participant, b: Participant, raisedHands: set<string>): int {
    var roleA := RoleRank(a);
    var roleB := RoleRank(b);
    if roleA != roleB then roleB - roleA
    else
      var handA := HandRank(a, raisedHands);
      var handB := HandRank(b, raisedHands);
      if handA != handB then handB - handA
      else LocaleCompare(a.name, b.name)
  }

  predicate InOrder(a: ParticipantEntry, b: ParticipantEntry, raisedHands: set<string>) {
    CompareParticipants(a.participant, b.participant, raisedHands) <= 0
  }

  predicate SortedEntries(s: seq<ParticipantEntry>, raisedHands: set<string>) {
    forall i, j :: 0 <= i < j < |s| ==> InOrder(s[i], s[j], raisedHands)
  }

  lemma {:induction false} LocaleCompareFlip(a: string, b: string)
    ensures LocaleCompare(a, b) == -LocaleCompare(b, a)
  {
    if a != [] && b != [] && a[0] == b[0] {
      LocaleCompareFlip(a[1..], b[1..]);
    }
  }

  lemma {:induction false} LocaleCompareTrans(a: string, b: string, c: string)
    requires LocaleCompare(a, b) <= 0 && LocaleCompare(b, c) <= 0
    ensures LocaleCompare(a, c) <= 0
  {
    if a != [] && b != [] && c != [] && a[0] == b[0] && b[0] == c[0] {
      LocaleCompareTrans(a[1..], b[1..], c[1..]);
    }
  }

  lemma CompareTotal(a: ParticipantEntry, b: ParticipantEntry, raisedHands: set<string>)
    ensures InOrder(a, b, raisedHands) || InOrder(b, a, raisedHands)
  {
    LocaleCompareFlip(a.participant.name, b.participant.name);
  }

  lemma CompareTrans(a: ParticipantEntry, b: ParticipantEntry, c: ParticipantEntry, raisedHands: set<string>)
    requires InOrder(a, b, raisedHands) && InOrder(b, c, raisedHands)
    ensures InOrder(a, c, raisedHands)
  {
    var pa, pb, pc := a.participant, b.participant, c.participant;
    if RoleRank(pa) == RoleRank(pb) == RoleRank(pc)
      && HandRank(pa, raisedHands) == HandRank(pb, raisedHands) == HandRank(pc, raisedHands)
    {
      LocaleCompareTrans(pa.name, pb.name, pc.name);
    }
  }

  function Insert(e: ParticipantEntry, s: seq<ParticipantEntry>, raisedHands: set<string>): seq<ParticipantEntry> {
    if s == [] then [e]
    else if InOrder(e, s[0], raisedHands) then [e] + s
    else [s[0]] + Insert(e, s[1..], raisedHands)
  }

  /** The participants panel, sorted by the comparator (the list `Object.entries(participants)` gives). */
  function SortParticipants(entries: seq<ParticipantEntry>, raisedHands: set<string>): seq<ParticipantEntry> {
    if entries == [] then [] else Insert(entries[0], SortParticipants(entries[1..], raisedHands), raisedHands)
  }

  lemma {:induction false} InsertPermutes(e: ParticipantEntry, s: seq<ParticipantEntry>, raisedHands: set<string>)
    ensures multiset(Insert(e, s, raisedHands)) == multiset(s) + multiset{e}
    ensures forall x :: x in Insert(e, s, raisedHands) <==> x == e || x in s
  {
    if s != [] && !InOrder(e, s[0], raisedHands) {
      InsertPermutes(e, s[1..], raisedHands);
      assert s == [s[0]] + s[1..];
    }
  }

  /** An entry ordered before every entry of a sorted list can head it. */
  lemma ConsSorted(x: ParticipantEntry, rest: seq<ParticipantEntry>, raisedHands: set<string>)
    requires SortedEntries(rest, raisedHands)
    requires forall y :: y in rest ==> InOrder(x, y, raisedHands)
    ensures SortedEntries([x] + rest, raisedHands)
  {
    var r := [x] + rest;
    forall i, j | 0 <= i < j < |r| ensures InOrder(r[i], r[j], raisedHands) {
      if i == 0 {
        assert r[j] == rest[j - 1];
      } else {
        assert r[i] == rest[i - 1] && r[j] == rest[j - 1];
      }
    }
  }

  lemma {:induction false} InsertSorted(e: ParticipantEntry, s: seq<ParticipantEntry>, raisedHands: set<string>)
    requires SortedEntries(s, raisedHands)
    ensures SortedEntries(Insert(e, s, raisedHands), raisedHands)
  {
    if s == [] {
    } else if InOrder(e, s[0], raisedHands) {
      forall y | y in s ensures InOrder(e, y, raisedHands) {
        var k :| 0 <= k < |s| && s[k] == y;
        if k > 0 {
          CompareTrans(e, s[0], y, raisedHands);
        }
      }
      ConsSorted(e, s, raisedHands);
    } else {
      CompareTotal(e, s[0], raisedHands);
      var rest := Insert(e, s[1..], raisedHands);
      assert SortedEntries(s[1..], raisedHands) by {
        forall i, j | 0 <= i < j < |s[1..]| ensures InOrder(s[1..][i], s[1..][j], raisedHands) {
          assert s[1..][i] == s[i + 1] && s[1..][j] == s[j + 1];
        }
      }
      InsertSorted(e, s[1..], raisedHands);
      InsertPermutes(e, s[1..], raisedHands);
      forall y | y in rest ensures InOrder(s[0], y, raisedHands) {
        if y != e {
          var k :| 0 <= k < |s[1..]| && s[1..][k] == y;
          assert s[k + 1] == y;
        }
      }
      ConsSorted(s[0], rest, raisedHands);
    }
  }

  /** The panel order is a reordering of the entries that the comparator accepts pairwise. */
  lemma {:induction false} SortParticipantsCorrect(entries: seq<ParticipantEntry>, raisedHands: set<string>)
    ensures SortedEntries(SortParticipants(entries, raisedHands), raisedHands)
    ensures multiset(SortParticipants(entries, raisedHands)) == multiset(entries)
  {
    if entries != [] {
      SortParticipantsCorrect(entries[1..], raisedHands);
      InsertSorted(entries[0], SortParticipants(entries[1..], raisedHands), raisedHands);
      InsertPermutes(entries[0], SortParticipants(entries[1..], raisedHands), raisedHands);
      assert entries == [entries[0]] + entries[1..];
    }
  }

  /**
   * In the panel, teachers come before everyone else; among the same role, raised
   * hands come first; among those, names ascend.
   */
  lemma ParticipantPanelOrder(entries: seq<ParticipantEntry>, raisedHands: set<string>, i: nat, j: nat)
    requires i < j < |entries|
    ensures var s := SortParticipants(entries, raisedHands);
      |s| == |entries| &&
      var a, b := s[i].participant, s[j].participant;
      && RoleRank(a) >= RoleRank(b)
      && (RoleRank(a) == RoleRank(b) ==> HandRank(a, raisedHands) >= HandRank(b, raisedHands))
      && (RoleRank(a) == RoleRank(b) && HandRank(a, raisedHands) == HandRank(b, raisedHands) ==>
            LocaleCompare(a.name, b.name) <= 0)
  {
    SortParticipantsCorrect(entries, raisedHands);
    var s := SortParticipants(entries, raisedHands);
    assert |s| == |multiset(s)| == |multiset(entries)| == |entries|;
    assert InOrder(s[i], s[j], raisedHands);
  }
}

=== FILE: room_page.dfy ===
/**
 * The room page's own bookkeeping, as its socket listeners and buttons update it:
 * the peer list (kept in a ref and mirrored in state), the participants table keyed
 * by socket id, the set of raised hands, the local hand flag and the chat log.
 * The page is taken from the moment the camera was granted and the local
 * participant entry was added.
 */
module RoomPage {
  import opened Wrappers
  import opened Records
  import opened RoomState
  import opened RoomLayout

  /** What `toggleHand` and `handleLowerHand` send to the server. */
  datatype HandRequest = RaiseHand(roomId: string, userId: string) | LowerHand(roomId: string, userId: string)

  predicate Distinct(ids: seq<string>) {
    forall i, j :: 0 <= i < j < |ids| ==> ids[i] != ids[j]
  }

  /** `createPeer`/`addPeer` on the peer list: a peer id already present is not added twice. */
  function WithPeer(ids: seq<string>, peerID: string): (r: seq<string>)
    ensures forall p :: p in r <==> p in ids || p == peerID
    ensures Distinct(ids) ==> Distinct(r)
    ensures ids <= r && |r| <= |ids| + 1
  {
    if peerID in ids then ids else ids + [peerID]
  }

  /** The peer list after one `createPeer` per entry of `news`, in order. */
  function WithPeers(ids: seq<string>, news: seq<string>): seq<string> {
    if news == [] then ids else WithPeer(WithPeers(ids, news[..|news| - 1]), news[|news| - 1])
  }

  /** `peersRef.current.filter(p => p.peerID !== socketId)` */
  function WithoutPeer(ids: seq<string>, peerID: string): (r: seq<string>)
    ensures forall p :: p in r <==> p in ids && p != peerID
    ensures |r| <= |ids|
  {
    if ids == [] then []
    else if ids[0] == peerID then WithoutPeer(ids[1..], peerID)
    else [ids[0]] + WithoutPeer(ids[1..], peerID)
  }

  function SocketIds(users: seq<RoomUser>): (r: seq<string>)
    ensures |r| == |users| && forall i :: 0 <= i < |users| ==> r[i] == users[i].socketId
  {
    seq(|users|, i requires 0 <= i < |users| => users[i].socketId)
  }

  /** An `all-users` entry as the page records it: the server sends no role and no media flags. */
  function SnapshotEntry(u: RoomUser): Participant {
    Participant(u.name, u.userId, "", false, false)
  }

  /** `setParticipants(p => ({ ...p, ...map }))` with one entry per user, the later user winning a shared socket id. */
  function MergeSnapshot(participants: map<string, Participant>, users: seq<RoomUser>): map<string, Participant> {
    if users == [] then participants
    else MergeSnapshot(participants, users[..|users| - 1])[users[|users| - 1].socketId := SnapshotEntry(users[|users| - 1])]
  }

  /** The peer list only grows by ids it did not hold, so its ids stay distinct. */
  lemma {:induction false} WithPeersKeepsDistinct(ids: seq<string>, news: seq<string>)
    requires Distinct(ids)
    ensures Distinct(WithPeers(ids, news))
    ensures forall p :: p in WithPeers(ids, news) <==> p in ids || p in news
    ensures ids <= WithPeers(ids, news)
  {
    if news != [] {
      var init := news[..|news| - 1];
      WithPeersKeepsDistinct(ids, init);
      assert news == init + [news[|news| - 1]];
    }
  }

  /** Removing a peer keeps the rest distinct. */
  lemma {:induction false} WithoutPeerKeepsDistinct(ids: seq<string>, peerID: string)
    requires Distinct(ids)
    ensures Distinct(WithoutPeer(ids, peerID))
  {
    if ids != [] {
      WithoutPeerKeepsDistinct(ids[1..], peerID);
      var rest := WithoutPeer(ids[1..], peerID);
      if ids[0] != peerID {
        assert ids[0] !in ids[1..];
        assert ids[0] !in rest;
      }
    }
  }

  /**
   * After `all-users`, every listed socket has an entry built from the snapshot, with
   * no role, so no remote peer learnt this way counts as a teacher; a socket that is
   * not listed keeps its entry.
   */
  lemma {:induction false} MergeSnapshotEntries(participants: map<string, Participant>, users: seq<RoomUser>)
    ensures var m := MergeSnapshot(participants, users);
      && (forall k :: k in m <==> k in participants || k in SocketIds(users))
      && (forall k :: k in participants && k !in SocketIds(users) ==> m[k] == participants[k])
      && (forall k :: k in SocketIds(users) ==> m[k].role == "" && !IsTeacherPeer(m, k))
  {
    if users != [] {
      var init := users[..|users| - 1];
      MergeSnapshotEntries(participants, init);
      assert SocketIds(users) == SocketIds(init) + [users[|users| - 1].socketId];
    }
  }

  class RoomView {
    const roomId: string
    const selfSocket: string
    const selfUserId: string
    const selfRole: string
    var peersRef: seq<string>
    var peers: seq<string>
    var participants: map<string, Participant>
    var raisedHands: set<string>
    var handRaised: bool
    var messages: seq<ChatMessage>

    /** The peer ref and the peer state hold the same ids, each once. */
    ghost predicate Valid()
      reads this
    {
      Distinct(peersRef) && peers == peersRef
    }

    /** The camera was granted: the local participant is recorded under the page's socket id. */
    constructor (roomId: string, socketId: string, userId: string, name: string, role: string, isMuted: bool, isVideoOff: bool)
      ensures Valid()
      ensures this.roomId == roomId && selfSocket == socketId && selfUserId == userId && selfRole == role
      ensures peersRef == [] && participants == map[socketId := Participant(name, userId, role, isMuted, isVideoOff)]
      ensures raisedHands == {} && !handRaised && messages == []
    {
      this.roomId := roomId;
      selfSocket := socketId;
      selfUserId := userId;
      selfRole := role;
      peersRef := [];
      peers := [];
      participants := map[socketId := Participant(name, userId, role, isMuted, isVideoOff)];
      raisedHands := {};
      handRaised := false;
      messages := [];
    }

    /** `createPeer(userToSignal, ...)` (as initiator) or `addPeer(signal, callerID, ...)`: at most one peer per id. */
    method CreatePeer(peerID: string) returns (created: bool)
      requires Valid()
      modifies this
      ensures Valid()
      ensures created <==> peerID !in old(peersRef)
      ensures peersRef == WithPeer(old(peersRef), peerID)
      ensures participants == old(participants) && raisedHands == old(raisedHands)
      ensures handRaised == old(handRaised) && messages == old(messages)
    {
      if peerID in peersRef {
        return false;
      }
      peersRef := peersRef + [peerID];
      peers := peers + [peerID];
      created := true;
    }

    /** `all-users`: record every listed socket, then open an initiating peer to each. */
    method OnAllUsers(users: seq<RoomUser>)
      requires Valid()
      modifies this
      ensures Valid()
      ensures participants == MergeSnapshot(old(participants), users)
      ensures peersRef == WithPeers(old(peersRef), SocketIds(users))
      ensures raisedHands == old(raisedHands) && handRaised == old(handRaised) && messages == old(messages)
    {
      var merged := participants;
      for i := 0 to |users|
        invariant merged == MergeSnapshot(participants, users[..i])
      {
        assert users[..i + 1][..i] == users[..i];
        merged := merged[users[i].socketId := SnapshotEntry(users[i])];
      }
      assert users[..|users|] == users;
      participants := merged;

      var ids := SocketIds(users);
      for i := 0 to |ids|
        invariant Valid()
        invariant peersRef == WithPeers(old(peersRef), ids[..i])
        invariant participants == merged
        invariant raisedHands == old(raisedHands) && handRaised == old(handRaised) && messages == old(messages)
      {
        assert ids[..i + 1][..i] == ids[..i];
        var _ := CreatePeer(ids[i]);
      }
      assert ids[..|ids|] == ids;
    }

    /** `user-disconnected`: drop the socket's peer and participant entry and the user's raised hand. */
    method OnUserDisconnected(userId: string, socketId: string)
      requires Valid()
      modifies this
      ensures Valid()
      ensures peersRef == WithoutPeer(old(peersRef), socketId)
      ensures participants == old(participants) - {socketId}
      ensures raisedHands == old(raisedHands) - {userId}
      ensures handRaised == old(handRaised) && messages == old(messages)
    {
      WithoutPeerKeepsDistinct(peersRef, socketId);
      peersRef := WithoutPeer(peersRef, socketId);
      peers := WithoutPeer(peers, socketId);
      participants := participants - {socketId};
      raisedHands := raisedHands - {userId};
    }

    /** `user-connected`: the server sends no socket id, so the entry lands under the key "undefined". */
    method OnUserConnected(userId: string, name: string)
      requires Valid()
      modifies this
      ensures Valid()
      ensures participants == WithConnected(old(participants), userId, name)
      ensures peersRef == old(peersRef) && raisedHands == old(raisedHands)
      ensures handRaised == old(handRaised) && messages == old(messages)
    {
      participants := participants["undefined" := Participant(name, userId, "", false, false)];
    }

    /** `user-raised-hand` */
    method OnUserRaisedHand(userId: string)
      requires Valid()
      modifies this
      ensures Valid()
      ensures raisedHands == old(raisedHands) + {userId}
      ensures peersRef == old(peersRef) && participants == old(participants)
      ensures handRaised == old(handRaised) && messages == old(messages)
    {
      raisedHands := raisedHands + {userId};
    }

    /** `user-lowered-hand`: the hand is gone; if it was the local user's, the local flag clears. */
    method OnUserLoweredHand(userId: string)
      requires Valid()
      modifies this
      ensures Valid()
      ensures raisedHands == old(raisedHands) - {userId}
      ensures handRaised == (old(handRaised) && userId != selfUserId)
      ensures peersRef == old(peersRef) && participants == old(participants) && messages == old(messages)
    {
      raisedHands := raisedHands - {userId};
      if userId == selfUserId {
        handRaised := false;
      }
    }

    /**
     * `user-toggled-media`: the first socket (in key order) whose participant has this
     * userId gets the new flags; with no such socket nothing changes.  Key order is
     * not part of the model, so the updated socket is one of the matching ones.
     */
    method OnUserToggledMedia(userId: string, isVideoOff: bool, isMuted: bool)
      requires Valid()
      modifies this
      ensures Valid()
      ensures (forall k :: k in old(participants) ==> old(participants)[k].userId != userId) ==>
        participants == old(participants)
      ensures (exists k :: k in old(participants) && old(participants)[k].userId == userId) ==>
        exists k :: k in old(participants) && old(participants)[k].userId == userId &&
          participants == old(participants)[k := old(participants)[k].(isVideoOff := isVideoOff, isMuted := isMuted)]
      ensures peersRef == old(peersRef) && raisedHands == old(raisedHands)
      ensures handRaised == old(handRaised) && messages == old(messages)
    {
      if k :| k in participants && participants[k].userId == userId {
        participants := participants[k := participants[k].(isVideoOff := isVideoOff, isMuted := isMuted)];
      }
    }

    /** `receive-message` */
    method OnReceiveMessage(msg: ChatMessage)
      requires Valid()
      modifies this
      ensures Valid()
      ensures messages == old(messages) + [msg]
      ensures peersRef == old(peersRef) && participants == old(participants)
      ensures raisedHands == old(raisedHands) && handRaised == old(handRaised)
    {
      messages := messages + [msg];
    }

    /** `toggleHand`: a teacher sends nothing; a student asks to lower a raised hand or raise a lowered one. */
    method ToggleHand() returns (request: Option<HandRequest>)
      requires Valid()
      modifies this
      ensures Valid()
      ensures selfRole == TeacherRole ==> request == None && handRaised == old(handRaised)
      ensures selfRole != TeacherRole ==>
        && handRaised == !old(handRaised)
        && request == Some(if old(handRaised) then LowerHand(roomId, selfUserId) else RaiseHand(roomId, selfUserId))
      ensures peersRef == old(peersRef) && participants == old(participants)
      ensures raisedHands == old(raisedHands) && messages == old(messages)
    {
      if selfRole == TeacherRole {
        return None;
      }
      request := Some(if handRaised then LowerHand(roomId, selfUserId) else RaiseHand(roomId, selfUserId));
      handRaised := !handRaised;
    }

    /** `handleLowerHand(target)`: ask the server to lower the target's hand and drop it locally at once. */
    method LowerHandOf(target: string) returns (request: HandRequest)
      requires Valid()
      modifies this
      ensures Valid()
      ensures request == LowerHand(roomId, target)
      ensures raisedHands == old(raisedHands) - {target}
      ensures peersRef == old(peersRef) && participants == old(participants)
      ensures handRaised == old(handRaised) && messages == old(messages)
    {
      request := LowerHand(roomId, target);
      raisedHands := raisedHands - {target};
    }
  }

  /** The key a `user-connected` entry lands under: the payload has no socket id. */
  const UnknownSocket := "undefined"

  /** The participants table after `user-connected`: the new user under "undefined", every other key as it was. */
  function WithConnected(participants: map<string, Participant>, userId: string, name: string): (r: map<string, Participant>)
    ensures UnknownSocket in r && r[UnknownSocket] == Participant(name, userId, "", false, false)
    ensures forall k :: k != UnknownSocket ==> (k in r <==> k in participants)
    ensures forall k :: k in participants && k != UnknownSocket ==> r[k] == participants[k]
  {
    participants[UnknownSocket := Participant(name, userId, "", false, false)]
  }

  /**
   * Two `user-connected` events leave a single "undefined" entry, the later user's: the
   * earlier user is in the table afterwards only if an entry of theirs was there before.
   */
  lemma UserConnectedOverwrites(participants: map<string, Participant>, first: string, firstName: string,
                                second: string, secondName: string)
    ensures var twice := WithConnected(WithConnected(participants, first, firstName), second, secondName);
      && twice == WithConnected(participants, second, secondName)
      && twice[UnknownSocket].userId == second && twice[UnknownSocket].name == secondName
      && |twice.Keys| <= |participants.Keys| + 1
      && (first != second ==> forall k :: k in twice && twice[k].userId == first ==>
            k in participants && participants[k].userId == first)
  {
    var once := WithConnected(participants, first, firstName);
    var twice := WithConnected(once, second, secondName);
    var direct := WithConnected(participants, second, secondName);
    assert twice.Keys == direct.Keys;
    assert direct.Keys == participants.Keys + {UnknownSocket};
  }
}

=== FILE: room_server.dfy ===
/**
 * The socket server's mutable state and its stateful handlers.  `roomUsers` is the
 * module-level membership table; `classrooms` is the classroom collection as the
 * handlers read and save it; `hooks` and `timers` are the disconnect listeners and
 * the armed auto-end callbacks.  Each method is one handler run to completion and is
 * proved to make exactly the step that RoomState specifies, keeping RoomState.Inv.
 */
module RoomServer {
  import opened Records
  import opened RoomState

  class Coordinator {
    var roomUsers: map<string, seq<RoomUser>>
    var classrooms: map<string, Classroom>
    var hooks: seq<DisconnectHook>
    var timers: seq<string>

    function State(): ServerState
      reads this
    {
      ServerState(roomUsers, classrooms, hooks, timers)
    }

    ghost predicate Valid()
      reads this
    {
      Inv(State())
    }

    /** A fresh server process: no one in any room, no listener, no timer. */
    constructor (persisted: map<string, Classroom>)
      ensures Valid()
      ensures State() == ServerState(map[], persisted, [], [])
    {
      roomUsers := map[];
      classrooms := persisted;
      hooks := [];
      timers := [];
    }

    /** join-room, sent from socket `socketId`. */
    method JoinRoom(roomId: string, userId: string, name: string, socketId: string) returns (out: seq<Emit>)
      requires Valid()
      modifies this
      ensures Valid()
      ensures Step(State(), out) == Join(old(State()), roomId, userId, name, socketId)
    {
      JoinKeepsInv(State(), roomId, userId, name, socketId);
      if roomId !in classrooms {
        out := [Emit(Sender, Error("Classroom not found"))];
        return;
      }
      var classroom := classrooms[roomId];
      var isTeacher := classroom.teacherId == userId;
      var isStudent := userId in classroom.studentIds;
      if !isTeacher && !isStudent {
        out := [Emit(Sender, Error("You are not a member of this class"))];
        return;
      }
      if isTeacher {
        if !classroom.isActive {
          classrooms := classrooms[roomId := classroom.(isActive := true)];
        }
      } else if !classroom.isActive {
        out := [Emit(Sender, Error("Class is not live yet"))];
        return;
      }

      out := EnterRoom(roomId, userId, name, socketId);
    }

    /** The admitted part of join-room, once the classroom is live. */
    method EnterRoom(roomId: string, userId: string, name: string, socketId: string) returns (out: seq<Emit>)
      modifies this
      ensures Step(State(), out) == Enter(old(State()), roomId, userId, name, socketId)
    {
      ghost var s0 := old(State());
      if roomId !in roomUsers {
        roomUsers := roomUsers[roomId := []];
      }
      var users := roomUsers[roomId];
      assert users == MembersOf(s0, roomId);
      if HasSession(users, userId, socketId) {
        out := [Emit(Sender, AllUsers(WithoutUser(users, userId)))];
        return;
      }
      users := WithoutUser(users, userId);
      users := users + [RoomUser(userId, name, socketId)];
      roomUsers := roomUsers[roomId := users];
      assert roomUsers == s0.roomUsers[roomId := users];
      out := [Emit(Sender, AllUsers(WithoutUser(users, userId))),
              Emit(RoomExceptSender(roomId), UserConnected(userId, name))];
      hooks := hooks + [DisconnectHook(socketId, roomId, userId)];
    }

    /** The socket `socketId` closes: each listener its fresh joins registered runs once, in order. */
    method Disconnect(socketId: string) returns (out: seq<Emit>)
      requires Valid()
      modifies this
      ensures Valid()
      ensures Step(State(), out) == RoomState.Disconnect(old(State()), socketId)
    {
      DisconnectKeepsInv(State(), socketId);
      var fired := FiredBy(hooks, socketId);
      roomUsers := RunHooks(roomUsers, fired);
      out := seq(|fired|, i requires 0 <= i < |fired| => HookEvent(fired[i]));
      hooks := Surviving(hooks, socketId);
    }

    /** start-class. */
    method StartClass(roomId: string, userId: string, duration: int) returns (out: seq<Emit>)
      requires Valid()
      modifies this
      ensures Valid()
      ensures Step(State(), out) == RoomState.StartClass(old(State()), roomId, userId, duration)
    {
      TimersKeepInv(State(), roomId, userId, duration, 0);
      if duration > 0 {
        timers := timers + [roomId];
      }
      out := [Emit(Room(DashboardChannel(roomId)), ClassStatusChanged(true))];
    }

    /** The callback of the armed timer at index i runs. */
    method FireTimer(i: nat) returns (out: seq<Emit>)
      requires Valid() && i < |timers|
      modifies this
      ensures Valid()
      ensures Step(State(), out) == RoomState.FireTimer(old(State()), i)
    {
      TimersKeepInv(State(), "", "", 0, i);
      var roomId := timers[i];
      timers := timers[..i] + timers[i + 1..];
      out := [];
      if roomId in classrooms && classrooms[roomId].isActive {
        classrooms := classrooms[roomId := classrooms[roomId].(isActive := false)];
        out := [Emit(Room(roomId), ClassEnded), Emit(Room(DashboardChannel(roomId)), ClassStatusChanged(false))];
        roomUsers := roomUsers - {roomId};
      }
    }

    /** end-class. */
    method EndClass(roomId: string, userId: string) returns (out: seq<Emit>)
      requires Valid()
      modifies this
      ensures Valid()
      ensures Step(State(), out) == RoomState.EndClass(old(State()), roomId, userId)
    {
      TimersKeepInv(State(), roomId, userId, 0, 0);
      out := [];
      if roomId in classrooms && classrooms[roomId].teacherId == userId {
        classrooms := classrooms[roomId := classrooms[roomId].(isActive := false)];
        out := [Emit(Room(roomId), ClassEnded), Emit(Room(DashboardChannel(roomId)), ClassStatusChanged(false))];
        roomUsers := roomUsers - {roomId};
      }
    }
  }
}

=== FILE: room_state.dfy ===
/**
 * The live-room coordinator of the socket server, as pure steps.
 *
 * The server keeps one module-level table, `roomUsers`, from a room id (the classroom id)
 * to the ordered list of `{userId, name, socketId}` entries of the users in the live call,
 * and it reads and writes the `isActive` flag of the persisted classroom.  Every socket
 * handler runs as one atomic step over that state and produces the events it emits,
 * each addressed to an audience: the sending socket, the room without the sender, or a
 * whole socket.io room (a classroom room, a `dashboard-<id>` room, or the private room
 * every socket has under its own id).
 *
 * Two pieces of runtime state are made explicit because the handlers create them:
 * the `disconnect` listeners that each fresh join registers on its socket (`hooks`), and
 * the auto-end timers that `start-class` arms (`timers`).
 */
module RoomState {
  import opened Records

  /** One entry of the membership table. */
  datatype RoomUser = RoomUser(userId: string, name: string, socketId: string)

  /** Who receives an emitted event. */
  datatype Audience =
    | Sender                        // socket.emit
    | RoomExceptSender(room: string) // socket.to(room).emit
    | Room(room: string)             // io.to(room).emit

  /** The chat payload, relayed verbatim. */
  datatype ChatMessage = ChatMessage(roomId: string, user: string, text: string, time: string)

  datatype Event =
    | Error(message: string)
    | AllUsers(users: seq<RoomUser>)
    | UserConnected(userId: string, name: string)
    | UserDisconnected(userId: string, socketId: string)
    | ClassEnded
    | ClassStatusChanged(isActive: bool)
    | UserRaisedHand(userId: string)
    | UserLoweredHand(userId: string)
    | ReceiveMessage(chat: ChatMessage)
    | UserJoined(signal: string, callerID: string)
    | ReceivingReturnedSignal(signal: string, id: string)

  datatype Emit = Emit(to: Audience, event: Event)

  /** A `disconnect` listener registered by a fresh join: on socket `socketId`, for `userId` in `roomId`. */
  datatype DisconnectHook = DisconnectHook(socketId: string, roomId: string, userId: string)

  datatype ServerState = ServerState(
    roomUsers: map<string, seq<RoomUser>>,
    classrooms: map<string, Classroom>,
    hooks: seq<DisconnectHook>,
    timers: seq<string>)

  /** The state after a handler and the events it emitted, in order. */
  datatype Step = Step(state: ServerState, out: seq<Emit>)

  function DashboardChannel(roomId: string): string {
    "dashboard-" + roomId
  }

  // ---------------------------------------------------------------------------
  // The membership list

  /** `users.filter(u => u.userId !== userId)` */
  function WithoutUser(users: seq<RoomUser>, userId: string): (r: seq<RoomUser>)
    ensures forall u :: u in r <==> u in users && u.userId != userId
    ensures |r| <= |users|
  {
    if users == [] then []
    else (if users[0].userId == userId then [] else [users[0]]) + WithoutUser(users[1..], userId)
  }

  /** At most one entry per userId. */
  predicate UniqueUsers(users: seq<RoomUser>) {
    forall i, j :: 0 <= i < j < |users| ==> users[i].userId != users[j].userId
  }

  /** `users.find(u => u.userId === userId && u.socketId === socketId)` succeeds. */
  predicate HasSession(users: seq<RoomUser>, userId: string, socketId: string) {
    exists i :: 0 <= i < |users| && users[i].userId == userId && users[i].socketId == socketId
  }

  function MembersOf(s: ServerState, roomId: string): seq<RoomUser> {
    if roomId in s.roomUsers then s.roomUsers[roomId] else []
  }

  lemma {:induction false} WithoutUserUnique(users: seq<RoomUser>, userId: string)
    requires UniqueUsers(users)
    ensures UniqueUsers(WithoutUser(users, userId))
  {
    if users != [] {
      WithoutUserUnique(users[1..], userId);
      var rest := WithoutUser(users[1..], userId);
      var r := WithoutUser(users, userId);
      if users[0].userId != userId {
        assert r == [users[0]] + rest;
        forall i, j | 0 <= i < j < |r| ensures r[i].userId != r[j].userId {
          if i == 0 {
            assert r[j] in rest;
            var k :| 0 <= k < |users[1..]| && users[1..][k] == r[j];
            assert users[k + 1] == r[j];
          } else {
            assert r[i] == rest[i - 1] && r[j] == rest[j - 1];
          }
        }
      }
    }
  }

  lemma {:induction false} WithoutUserAppend(a: seq<RoomUser>, b: seq<RoomUser>, userId: string)
    ensures WithoutUser(a + b, userId) == WithoutUser(a, userId) + WithoutUser(b, userId)
  {
    if a != [] {
      assert (a + b)[1..] == a[1..] + b;
      WithoutUserAppend(a[1..], b, userId);
    } else {
      assert a + b == b;
    }
  }

  lemma {:induction false} WithoutUserAbsent(users: seq<RoomUser>, userId: string)
    requires forall u :: u in users ==> u.userId != userId
    ensures WithoutUser(users, userId) == users
  {
    if users != [] {
      WithoutUserAbsent(users[1..], userId);
    }
  }

  /** After a fresh join, filtering the joiner out of the new list gives the old list without the joiner. */
  lemma FreshListOthers(users: seq<RoomUser>, e: RoomUser)
    ensures WithoutUser(WithoutUser(users, e.userId) + [e], e.userId) == WithoutUser(users, e.userId)
  {
    var others := WithoutUser(users, e.userId);
    WithoutUserAppend(others, [e], e.userId);
    WithoutUserAbsent(others, e.userId);
    assert WithoutUser([e], e.userId) == [];
  }

  // ---------------------------------------------------------------------------
  // The invariant: at most one entry per userId in a room, and every entry still has
  // the disconnect listener that will prune it.

  predicate Covered(s: ServerState, roomId: string)
    requires roomId in s.roomUsers
  {
    forall e :: e in s.roomUsers[roomId] ==> DisconnectHook(e.socketId, roomId, e.userId) in s.hooks
  }

  predicate Inv(s: ServerState) {
    forall r :: r in s.roomUsers ==> UniqueUsers(s.roomUsers[r]) && Covered(s, r)
  }

  // ---------------------------------------------------------------------------
  // join-room

  /** The join passes the classroom lookup, the membership check and the liveness gate. */
  predicate Admitted(s: ServerState, roomId: string, userId: string) {
    roomId in s.classrooms &&
    var c := s.classrooms[roomId];
    c.teacherId == userId || (userId in c.studentIds && c.isActive)
  }

  function Join(s: ServerState, roomId: string, userId: string, name: string, socketId: string): Step {
    if roomId !in s.classrooms then
      Step(s, [Emit(Sender, Error("Classroom not found"))])
    else
      var c := s.classrooms[roomId];
      var isTeacher := c.teacherId == userId;
      var isStudent := userId in c.studentIds;
      if !isTeacher && !isStudent then
        Step(s, [Emit(Sender, Error("You are not a member of this class"))])
      else if !isTeacher && !c.isActive then
        Step(s, [Emit(Sender, Error("Class is not live yet"))])
      else
        var classrooms := if isTeacher && !c.isActive then s.classrooms[roomId := c.(isActive := true)] else s.classrooms;
        Enter(s.(classrooms := classrooms), roomId, userId, name, socketId)
  }

  /**
   * The admitted part of join-room: a repeat join from the same socket only gets the
   * list back; otherwise any older session of the user is replaced by this one, the
   * others hear about it and a disconnect listener is registered.
   */
  function Enter(s: ServerState, roomId: string, userId: string, name: string, socketId: string): Step {
    var users := MembersOf(s, roomId);
    if HasSession(users, userId, socketId) then
      Step(s.(roomUsers := s.roomUsers[roomId := users]),
           [Emit(Sender, AllUsers(WithoutUser(users, userId)))])
    else
      var users' := WithoutUser(users, userId) + [RoomUser(userId, name, socketId)];
      Step(ServerState(s.roomUsers[roomId := users'], s.classrooms,
                       s.hooks + [DisconnectHook(socketId, roomId, userId)], s.timers),
           [Emit(Sender, AllUsers(WithoutUser(users', userId))),
            Emit(RoomExceptSender(roomId), UserConnected(userId, name))])
  }

  /** A join for an unknown classroom or from a non-member is refused with an error to the sender alone. */
  lemma JoinRefusesOutsiders(s: ServerState, roomId: string, userId: string, name: string, socketId: string)
    requires roomId !in s.classrooms ||
             (s.classrooms[roomId].teacherId != userId && userId !in s.classrooms[roomId].studentIds)
    ensures Join(s, roomId, userId, name, socketId).state == s
    ensures Join(s, roomId, userId, name, socketId).out ==
            [Emit(Sender, Error(if roomId !in s.classrooms then "Classroom not found"
                                else "You are not a member of this class"))]
  {
  }

  /** A student join while the class is not live is refused and changes nothing. */
  lemma JoinWaitsForLiveClass(s: ServerState, roomId: string, userId: string, name: string, socketId: string)
    requires roomId in s.classrooms && !s.classrooms[roomId].isActive
    requires s.classrooms[roomId].teacherId != userId
    ensures Join(s, roomId, userId, name, socketId).state == s
    ensures Join(s, roomId, userId, name, socketId).out == [Emit(Sender, Error(
              if userId in s.classrooms[roomId].studentIds then "Class is not live yet"
              else "You are not a member of this class"))]
  {
  }

  /**
   * An admitted join leaves the joiner in the room under its socket and the classroom
   * live; a teacher's join is what switches it live, and no other classroom changes.
   */
  lemma AdmittedJoinIsPresent(s: ServerState, roomId: string, userId: string, name: string, socketId: string)
    requires Admitted(s, roomId, userId)
    ensures var t := Join(s, roomId, userId, name, socketId).state;
      && roomId in t.roomUsers && HasSession(t.roomUsers[roomId], userId, socketId)
      && t.classrooms == s.classrooms[roomId := s.classrooms[roomId].(isActive := true)]
      && (forall r :: r != roomId && r in s.roomUsers ==> r in t.roomUsers && t.roomUsers[r] == s.roomUsers[r])
  {
    var t := Join(s, roomId, userId, name, socketId).state;
    var users := MembersOf(s, roomId);
    if !HasSession(users, userId, socketId) {
      var users' := WithoutUser(users, userId) + [RoomUser(userId, name, socketId)];
      assert users'[|users'| - 1] == RoomUser(userId, name, socketId);
    } else if roomId in s.roomUsers {
      assert t.roomUsers[roomId] == users;
    }
  }

  /**
   * A repeated join on the same socket changes no membership, registers no listener and
   * broadcasts nothing: the joiner only gets the snapshot of the other entries again.
   */
  lemma DuplicateJoinIsQuiet(s: ServerState, roomId: string, userId: string, name: string, socketId: string)
    requires Admitted(s, roomId, userId)
    requires roomId in s.roomUsers && HasSession(s.roomUsers[roomId], userId, socketId)
    ensures var step := Join(s, roomId, userId, name, socketId);
      && step.state.roomUsers == s.roomUsers
      && step.state.hooks == s.hooks
      && step.out == [Emit(Sender, AllUsers(WithoutUser(s.roomUsers[roomId], userId)))]
  {
    assert s.roomUsers[roomId := s.roomUsers[roomId]] == s.roomUsers;
  }

  /**
   * A fresh join drops every earlier entry of the user and appends the new one last:
   * the user then has exactly one entry, the other entries keep their relative order,
   * the joiner's snapshot is exactly those other entries, and the rest of the room
   * hears `user-connected`.
   */
  lemma FreshJoinReplaces(s: ServerState, roomId: string, userId: string, name: string, socketId: string)
    requires Admitted(s, roomId, userId)
    requires !HasSession(MembersOf(s, roomId), userId, socketId)
    ensures var step := Join(s, roomId, userId, name, socketId);
      var users := MembersOf(s, roomId);
      var users' := step.state.roomUsers[roomId];
      && roomId in step.state.roomUsers
      && |users'| >= 1 && users'[|users'| - 1] == RoomUser(userId, name, socketId)
      && (forall i :: 0 <= i < |users'| - 1 ==> users'[i].userId != userId)
      && WithoutUser(users', userId) == WithoutUser(users, userId)
      && step.out == [Emit(Sender, AllUsers(WithoutUser(users, userId))),
                      Emit(RoomExceptSender(roomId), UserConnected(userId, name))]
      && step.state.hooks == s.hooks + [DisconnectHook(socketId, roomId, userId)]
  {
    var users := MembersOf(s, roomId);
    var others := WithoutUser(users, userId);
    var users' := others + [RoomUser(userId, name, socketId)];
    FreshListOthers(users, RoomUser(userId, name, socketId));
    forall i | 0 <= i < |users'| - 1 ensures users'[i].userId != userId {
      assert users'[i] == others[i];
      assert others[i] in others;
    }
  }

  /** Every join keeps the invariant. */
  lemma JoinKeepsInv(s: ServerState, roomId: string, userId: string, name: string, socketId: string)
    requires Inv(s)
    ensures Inv(Join(s, roomId, userId, name, socketId).state)
  {
    var t := Join(s, roomId, userId, name, socketId).state;
    if Admitted(s, roomId, userId) {
      var users := MembersOf(s, roomId);
      if HasSession(users, userId, socketId) {
        assert roomId in s.roomUsers;
        assert t.roomUsers == s.roomUsers;
      } else {
        var e := RoomUser(userId, name, socketId);
        var others := WithoutUser(users, userId);
        var users' := others + [e];
        assert UniqueUsers(users) by {
          if roomId !in s.roomUsers { assert users == []; }
        }
        WithoutUserUnique(users, userId);
        forall i, j | 0 <= i < j < |users'| ensures users'[i].userId != users'[j].userId {
          if j == |users'| - 1 {
            assert others[i] in others;
          }
        }
        forall r | r in t.roomUsers ensures Covered(t, r) {
          if r == roomId {
            forall x | x in users' ensures DisconnectHook(x.socketId, r, x.userId) in t.hooks {
              if x != e {
                assert x in others && x in users;
                assert roomId in s.roomUsers;
                assert DisconnectHook(x.socketId, r, x.userId) in s.hooks;
              }
            }
          } else {
            assert Covered(s, r);
          }
        }
      }
    }
  }

  // ---------------------------------------------------------------------------
  // disconnect: every listener the socket's fresh joins registered runs, in order.

  /** One listener: `roomUsers[roomId] = roomUsers[roomId].filter(u => u.userId !== userId)` when the room exists. */
  function RunHook(roomUsers: map<string, seq<RoomUser>>, h: DisconnectHook): map<string, seq<RoomUser>> {
    if h.roomId in roomUsers then roomUsers[h.roomId := WithoutUser(roomUsers[h.roomId], h.userId)]
    else roomUsers
  }

  function HookEvent(h: DisconnectHook): Emit {
    Emit(RoomExceptSender(h.roomId), UserDisconnected(h.userId, h.socketId))
  }

  /** The listeners of one socket, in registration order. */
  function FiredBy(hooks: seq<DisconnectHook>, socketId: string): (r: seq<DisconnectHook>)
    ensures forall h :: h in r <==> h in hooks && h.socketId == socketId
  {
    if hooks == [] then []
    else (if hooks[0].socketId == socketId then [hooks[0]] else []) + FiredBy(hooks[1..], socketId)
  }

  /** The listeners of all other sockets. */
  function Surviving(hooks: seq<DisconnectHook>, socketId: string): (r: seq<DisconnectHook>)
    ensures forall h :: h in r <==> h in hooks && h.socketId != socketId
  {
    if hooks == [] then []
    else (if hooks[0].socketId == socketId then [] else [hooks[0]]) + Surviving(hooks[1..], socketId)
  }

  function RunHooks(roomUsers: map<string, seq<RoomUser>>, hs: seq<DisconnectHook>): map<string, seq<RoomUser>>
    decreases |hs|
  {
    if hs == [] then roomUsers else RunHooks(RunHook(roomUsers, hs[0]), hs[1..])
  }

  function Disconnect(s: ServerState, socketId: string): Step {
    var fired := FiredBy(s.hooks, socketId);
    Step(s.(roomUsers := RunHooks(s.roomUsers, fired), hooks := Surviving(s.hooks, socketId)),
         seq(|fired|, i requires 0 <= i < |fired| => HookEvent(fired[i])))
  }

  /** The rooms after running listeners: the same rooms, each holding a subset of its entries. */
  predicate Shrunk(m: map<string, seq<RoomUser>>, m': map<string, seq<RoomUser>>) {
    m'.Keys == m.Keys && forall r :: r in m ==> forall e :: e in m'[r] ==> e in m[r]
  }

  predicate AllUnique(m: map<string, seq<RoomUser>>) {
    forall r :: r in m ==> UniqueUsers(m[r])
  }

  /**
   * A disconnect listener removes every entry of its user in its room, whatever socket
   * that entry was made from, and leaves all other entries and rooms as they were.
   */
  lemma HookIgnoresSocket(m: map<string, seq<RoomUser>>, h: DisconnectHook)
    ensures var m' := RunHook(m, h);
      && m'.Keys == m.Keys
      && (h.roomId in m ==> forall e :: e in m'[h.roomId] <==> e in m[h.roomId] && e.userId != h.userId)
      && (forall r :: r in m && r != h.roomId ==> m'[r] == m[r])
  {
  }

  lemma {:induction false} RunHooksShrinks(m: map<string, seq<RoomUser>>, hs: seq<DisconnectHook>)
    ensures Shrunk(m, RunHooks(m, hs))
    ensures AllUnique(m) ==> AllUnique(RunHooks(m, hs))
    decreases |hs|
  {
    if hs != [] {
      var m1 := RunHook(m, hs[0]);
      RunHooksShrinks(m1, hs[1..]);
      if AllUnique(m) {
        forall r | r in m1 ensures UniqueUsers(m1[r]) {
          if r == hs[0].roomId { WithoutUserUnique(m[r], hs[0].userId); }
        }
      }
    }
  }

  /** Once one of the listeners has run, its user has no entry left in its room. */
  lemma {:induction false} RunHooksRemoves(m: map<string, seq<RoomUser>>, hs: seq<DisconnectHook>, h: DisconnectHook)
    requires h in hs
    ensures var m' := RunHooks(m, hs);
      h.roomId in m' ==> forall e :: e in m'[h.roomId] ==> e.userId != h.userId
    decreases |hs|
  {
    var m1 := RunHook(m, hs[0]);
    RunHooksShrinks(m1, hs[1..]);
    if h != hs[0] {
      RunHooksRemoves(m1, hs[1..], h);
    }
  }

  /** A disconnect keeps the invariant. */
  lemma DisconnectKeepsInv(s: ServerState, socketId: string)
    requires Inv(s)
    ensures Inv(Disconnect(s, socketId).state)
  {
    var t := Disconnect(s, socketId).state;
    var fired := FiredBy(s.hooks, socketId);
    RunHooksShrinks(s.roomUsers, fired);
    forall r | r in t.roomUsers ensures UniqueUsers(t.roomUsers[r]) && Covered(t, r) {
      assert Covered(s, r);
      forall e | e in t.roomUsers[r] ensures DisconnectHook(e.socketId, r, e.userId) in t.hooks {
        var h := DisconnectHook(e.socketId, r, e.userId);
        assert h in s.hooks;
        if e.socketId == socketId {
          RunHooksRemoves(s.roomUsers, fired, h);
          assert false;
        }
      }
    }
  }

  /** After a socket disconnects, no room holds an entry made from that socket. */
  lemma DisconnectLeavesNoSession(s: ServerState, socketId: string)
    requires Inv(s)
    ensures var t := Disconnect(s, socketId).state;
      forall r :: r in t.roomUsers ==> forall e :: e in t.roomUsers[r] ==> e.socketId != socketId
  {
    var t := Disconnect(s, socketId).state;
    DisconnectKeepsInv(s, socketId);
    forall r, e | r in t.roomUsers && e in t.roomUsers[r] ensures e.socketId != socketId {
      assert Covered(t, r);
    }
  }

  /**
   * A disconnect announces, once per listener of that socket, the listener's user with
   * that socket id to the rest of the listener's room; the socket's listeners are gone
   * afterwards, every other listener stays, and no classroom changes.
   */
  lemma DisconnectAnnounces(s: ServerState, socketId: string)
    ensures var step := Disconnect(s, socketId);
      && |step.out| == |FiredBy(s.hooks, socketId)|
      && (forall i :: 0 <= i < |step.out| ==>
            exists h :: h in s.hooks && h.socketId == socketId &&
              step.out[i] == Emit(RoomExceptSender(h.roomId), UserDisconnected(h.userId, socketId)))
      && (forall h :: h in s.hooks && h.socketId == socketId ==>
            Emit(RoomExceptSender(h.roomId), UserDisconnected(h.userId, socketId)) in step.out)
      && (forall h :: h in step.state.hooks <==> h in s.hooks && h.socketId != socketId)
      && step.state.classrooms == s.classrooms && step.state.timers == s.timers
  {
    var fired := FiredBy(s.hooks, socketId);
    var out := Disconnect(s, socketId).out;
    forall i | 0 <= i < |out|
      ensures exists h :: h in s.hooks && h.socketId == socketId &&
                out[i] == Emit(RoomExceptSender(h.roomId), UserDisconnected(h.userId, socketId))
    {
      assert fired[i] in fired;
      assert out[i] == HookEvent(fired[i]);
    }
    forall h | h in s.hooks && h.socketId == socketId
      ensures Emit(RoomExceptSender(h.roomId), UserDisconnected(h.userId, socketId)) in out
    {
      var i :| 0 <= i < |fired| && fired[i] == h;
      assert out[i] == HookEvent(fired[i]);
    }
  }

  /**
   * The disconnect of a stale socket removes the user's newer session too: a user who
   * joined from socket A and then again from socket B has no entry in the room once A
   * disconnects, because the listener filters by userId only.
   */
  lemma StaleDisconnectDropsRejoin(s: ServerState, roomId: string, userId: string, name: string, a: string, b: string)
    requires Admitted(s, roomId, userId) && a != b
    requires !HasSession(MembersOf(s, roomId), userId, a)
    ensures var s1 := Join(s, roomId, userId, name, a).state;
      var s2 := Join(s1, roomId, userId, name, b).state;
      var s3 := Disconnect(s2, a).state;
      && HasSession(s2.roomUsers[roomId], userId, b)
      && roomId in s3.roomUsers
      && forall e :: e in s3.roomUsers[roomId] ==> e.userId != userId
  {
    var s1 := Join(s, roomId, userId, name, a).state;
    FreshJoinReplaces(s, roomId, userId, name, a);
    assert Admitted(s1, roomId, userId);
    var users1 := s1.roomUsers[roomId];
    forall i | 0 <= i < |users1| ensures !(users1[i].userId == userId && users1[i].socketId == b) {
      if i == |users1| - 1 {
        assert users1[i].socketId == a;
      }
    }
    FreshJoinReplaces(s1, roomId, userId, name, b);
    AdmittedJoinIsPresent(s1, roomId, userId, name, b);
    var s2 := Join(s1, roomId, userId, name, b).state;
    var h := DisconnectHook(a, roomId, userId);
    assert h in s2.hooks;
    var fired := FiredBy(s2.hooks, a);
    RunHooksShrinks(s2.roomUsers, fired);
    RunHooksRemoves(s2.roomUsers, fired, h);
  }

  // ---------------------------------------------------------------------------
  // start-class, the auto-end timer, end-class

  /** Anyone may send start-class; it only notifies the dashboard and arms a timer for a positive duration. */
  function StartClass(s: ServerState, roomId: string, userId: string, duration: int): Step {
    Step(if duration > 0 then s.(timers := s.timers + [roomId]) else s,
         [Emit(Room(DashboardChannel(roomId)), ClassStatusChanged(true))])
  }

  /** Switch the classroom offline, tell the room and the dashboard, and forget the membership list. */
  function EndRoom(s: ServerState, roomId: string): Step
    requires roomId in s.classrooms
  {
    Step(s.(classrooms := s.classrooms[roomId := s.classrooms[roomId].(isActive := false)],
            roomUsers := s.roomUsers - {roomId}),
         [Emit(Room(roomId), ClassEnded), Emit(Room(DashboardChannel(roomId)), ClassStatusChanged(false))])
  }

  /** The timer callback: acts only if the classroom exists and is still active. */
  function AutoEnd(s: ServerState, roomId: string): Step {
    if roomId in s.classrooms && s.classrooms[roomId].isActive then EndRoom(s, roomId) else Step(s, [])
  }

  /** The environment fires the armed timer at index i; a timer fires once. */
  function FireTimer(s: ServerState, i: nat): Step
    requires i < |s.timers|
  {
    AutoEnd(s.(timers := s.timers[..i] + s.timers[i + 1..]), s.timers[i])
  }

  /** end-class: only the classroom's teacher ends it; it does not look at isActive. */
  function EndClass(s: ServerState, roomId: string, userId: string): Step {
    if roomId in s.classrooms && s.classrooms[roomId].teacherId == userId then EndRoom(s, roomId)
    else Step(s, [])
  }

  /** start-class never touches membership or the live flag, and arms a timer exactly when duration > 0. */
  lemma StartClassOnlyArms(s: ServerState, roomId: string, userId: string, duration: int)
    ensures var t := StartClass(s, roomId, userId, duration).state;
      && t.roomUsers == s.roomUsers && t.classrooms == s.classrooms && t.hooks == s.hooks
      && t.timers == (if duration > 0 then s.timers + [roomId] else s.timers)
      && StartClass(s, roomId, userId, duration).out == [Emit(Room(DashboardChannel(roomId)), ClassStatusChanged(true))]
  {
  }

  /** end-class from the teacher clears the room and switches it offline; from anyone else it does nothing. */
  lemma EndClassByTeacherOnly(s: ServerState, roomId: string, userId: string)
    ensures var step := EndClass(s, roomId, userId);
      if roomId in s.classrooms && s.classrooms[roomId].teacherId == userId then
        && roomId in step.state.classrooms && !step.state.classrooms[roomId].isActive
        && roomId !in step.state.roomUsers
        && (forall r :: r in s.roomUsers && r != roomId ==> r in step.state.roomUsers && step.state.roomUsers[r] == s.roomUsers[r])
        && step.state.classrooms == s.classrooms[roomId := s.classrooms[roomId].(isActive := false)]
        && step.state.hooks == s.hooks && step.state.timers == s.timers
        && step.out == [Emit(Room(roomId), ClassEnded), Emit(Room(DashboardChannel(roomId)), ClassStatusChanged(false))]
      else
        step == Step(s, [])
  {
  }

  /** A timer for a room that is not live only disarms itself: no event, no other change. */
  lemma TimerOnIdleRoomIsSilent(s: ServerState, i: nat)
    requires i < |s.timers|
    requires s.timers[i] !in s.classrooms || !s.classrooms[s.timers[i]].isActive
    ensures FireTimer(s, i) == Step(s.(timers := s.timers[..i] + s.timers[i + 1..]), [])
  {
  }

  /** After the teacher's end-class, every armed timer of that room fires silently. */
  lemma TimerAfterManualEndIsSilent(s: ServerState, roomId: string, userId: string, i: nat)
    requires roomId in s.classrooms && s.classrooms[roomId].teacherId == userId
    requires i < |s.timers| && s.timers[i] == roomId
    ensures var t := EndClass(s, roomId, userId).state;
      FireTimer(t, i) == Step(t.(timers := t.timers[..i] + t.timers[i + 1..]), [])
  {
    var t := EndClass(s, roomId, userId).state;
    TimerOnIdleRoomIsSilent(t, i);
  }

  /**
   * Timers are never cancelled: a timer armed for an earlier session ends a session the
   * teacher started again after ending the first one by hand.
   */
  lemma StaleTimerEndsNextSession(s: ServerState, roomId: string, teacher: string, name: string, socketId: string, i: nat)
    requires roomId in s.classrooms && s.classrooms[roomId].teacherId == teacher
    requires i < |s.timers| && s.timers[i] == roomId
    ensures var t1 := EndClass(s, roomId, teacher).state;
      var t2 := Join(t1, roomId, teacher, name, socketId).state;
      && t2.classrooms[roomId].isActive
      && FireTimer(t2, i).out == [Emit(Room(roomId), ClassEnded), Emit(Room(DashboardChannel(roomId)), ClassStatusChanged(false))]
  {
    var t1 := EndClass(s, roomId, teacher).state;
    AdmittedJoinIsPresent(t1, roomId, teacher, name, socketId);
  }

  lemma EndRoomKeepsInv(s: ServerState, roomId: string)
    requires Inv(s) && roomId in s.classrooms
    ensures Inv(EndRoom(s, roomId).state)
  {
    var t := EndRoom(s, roomId).state;
    forall r | r in t.roomUsers ensures UniqueUsers(t.roomUsers[r]) && Covered(t, r) {
      assert Covered(s, r);
    }
  }

  lemma TimersKeepInv(s: ServerState, roomId: string, userId: string, duration: int, i: nat)
    requires Inv(s)
    ensures Inv(StartClass(s, roomId, userId, duration).state)
    ensures Inv(EndClass(s, roomId, userId).state)
    ensures i < |s.timers| ==> Inv(FireTimer(s, i).state)
  {
    var t := StartClass(s, roomId, userId, duration).state;
    forall r | r in t.roomUsers ensures Covered(t, r) { assert Covered(s, r); }
    if roomId in s.classrooms { EndRoomKeepsInv(s, roomId); }
    if i < |s.timers| {
      var u := s.(timers := s.timers[..i] + s.timers[i + 1..]);
      forall r | r in u.roomUsers ensures Covered(u, r) { assert Covered(s, r); }
      if s.timers[i] in u.classrooms { EndRoomKeepsInv(u, s.timers[i]); }
    }
  }

  // ---------------------------------------------------------------------------
  // Stateless relays: hands, chat and WebRTC signaling

  /** raise-hand: the payload is relayed to the whole room. */
  function RaiseHand(s: ServerState, roomId: string, userId: string): Step {
    Step(s, [Emit(Room(roomId), UserRaisedHand(userId))])
  }

  /** lower-hand: the payload is relayed to the whole room. */
  function LowerHand(s: ServerState, roomId: string, userId: string): Step {
    Step(s, [Emit(Room(roomId), UserLoweredHand(userId))])
  }

  /** send-message: the message is relayed, unchanged, to the room it names. */
  function SendMessage(s: ServerState, m: ChatMessage): Step {
    Step(s, [Emit(Room(m.roomId), ReceiveMessage(m))])
  }

  /** The `sending-signal` payload. */
  datatype SignalOffer = SignalOffer(userToSignal: string, callerID: string, signal: string)
  /** The `returning-signal` payload. */
  datatype SignalAnswer = SignalAnswer(callerID: string, signal: string)

  function SendingSignal(p: SignalOffer): seq<Emit> {
    [Emit(Room(p.userToSignal), UserJoined(p.signal, p.callerID))]
  }

  /** The answer goes back to the caller, tagged with the responding socket's own id. */
  function ReturningSignal(d: SignalAnswer, responderSocket: string): seq<Emit> {
    [Emit(Room(d.callerID), ReceivingReturnedSignal(d.signal, responderSocket))]
  }

  /**
   * Hand and chat events change no server state, and what they emit does not depend
   * on the state: a sender who is not in the room, or who names another user, or a
   * room that is not live, is relayed all the same.  The server checks no authority
   * and keeps no hand state.
   */
  lemma RelaysIgnoreServerState(s: ServerState, t: ServerState, roomId: string, userId: string, m: ChatMessage)
    ensures RaiseHand(s, roomId, userId).state == s && LowerHand(s, roomId, userId).state == s
    ensures SendMessage(s, m).state == s
    ensures RaiseHand(s, roomId, userId).out == RaiseHand(t, roomId, userId).out
    ensures LowerHand(s, roomId, userId).out == LowerHand(t, roomId, userId).out
    ensures SendMessage(s, m).out == SendMessage(t, m).out
    ensures |RaiseHand(s, roomId, userId).out| == 1 && |LowerHand(s, roomId, userId).out| == 1
    ensures |SendMessage(s, m).out| == 1
    ensures RaiseHand(s, roomId, userId).out[0] == Emit(Room(roomId), UserRaisedHand(userId))
    ensures LowerHand(s, roomId, userId).out[0] == Emit(Room(roomId), UserLoweredHand(userId))
    ensures SendMessage(s, m).out[0] == Emit(Room(m.roomId), ReceiveMessage(m))
  {
  }

  /**
   * The signaling round trip: the offer reaches the named socket with the signal and the
   * caller's id unchanged, and the answer the target builds from what it received
   * reaches the original caller, tagged with the target's socket id.
   */
  lemma SignalRoundTrip(p: SignalOffer, answer: string)
    ensures var offer := SendingSignal(p);
      && |offer| == 1 && offer[0].to == Room(p.userToSignal)
      && offer[0].event == UserJoined(p.signal, p.callerID)
      && var reply := ReturningSignal(SignalAnswer(offer[0].event.callerID, answer), p.userToSignal);
         reply == [Emit(Room(p.callerID), ReceivingReturnedSignal(answer, p.userToSignal))]
  {
  }
}

=== FILE: submission_routes.dfy ===
/**
 * The submission routes: a student hands in an assignment once, before its due date,
 * optionally with a file; and a student looks up their own submission.
 */
module SubmissionRoutes {
  import opened Wrappers
  import opened Records
  import opened Http
  import opened Upload

  /** `Assignment.findById(id)` */
  function FindAssignment(assignments: seq<Assignment>, id: string): (r: Option<Assignment>)
    ensures r.Some? ==> r.value in assignments && r.value.id == id
    ensures r.None? ==> forall a :: a in assignments ==> a.id != id
  {
    if assignments == [] then None
    else if assignments[0].id == id then Some(assignments[0])
    else FindAssignment(assignments[1..], id)
  }

  predicate SamePair(s: Submission, assignmentId: string, studentId: string) {
    s.assignmentId == assignmentId && s.studentId == studentId
  }

  /** `Submission.findOne({ assignmentId, studentId })`: the first matching submission, or null. */
  function FindSubmission(subs: seq<Submission>, assignmentId: string, studentId: string): (r: Option<Submission>)
    ensures r.Some? ==> r.value in subs && SamePair(r.value, assignmentId, studentId)
    ensures r.None? <==> forall s :: s in subs ==> !SamePair(s, assignmentId, studentId)
  {
    if subs == [] then None
    else if SamePair(subs[0], assignmentId, studentId) then Some(subs[0])
    else FindSubmission(subs[1..], assignmentId, studentId)
  }

  /** No student has two submissions for the same assignment. */
  predicate AtMostOnePerPair(subs: seq<Submission>) {
    forall i, j :: 0 <= i < j < |subs| ==>
      !SamePair(subs[j], subs[i].assignmentId, subs[i].studentId)
  }

  /** A submission request: the form fields (a missing field is ""), the optional file, the ids of the request. */
  datatype SubmitRequest = SubmitRequest(
    assignmentId: string,
    studentId: string,
    content: string,
    file: Option<IncomingFile>,
    protocol: string,
    host: string)

  /** The URL recorded for the uploaded file, or null without one. */
  function UploadedUrl(outcome: FileOutcome, protocol: string, host: string): Option<string> {
    if outcome.Stored? then Some(FileUrl(protocol, host, outcome.filename)) else None
  }

  /**
   * POST /api/submissions/:assignmentId, in order: the upload, a student id, no
   * earlier submission for the pair, an assignment with that id, and `now` not past
   * its due date; then the new submission is saved with no grade and empty feedback.
   * `newId` is the id the database assigns.
   */
  function Submit(subs: seq<Submission>, assignments: seq<Assignment>, req: SubmitRequest, now: nat, newId: string)
    : (result: (Reply<Submission>, seq<Submission>))
    ensures result.0.Refused? ==> result.1 == subs
    ensures result.0.Sent? ==> result.0.status == 201 && result.1 == subs + [result.0.body]
    ensures Receive(req.file, now).Failed? ==>
      result.0 == Refused(UploadErrorResponse(Receive(req.file, now).err))
    ensures !Receive(req.file, now).Failed? && req.studentId == [] ==>
      result.0 == Refused(Response(400, "Missing studentId"))
    ensures (!Receive(req.file, now).Failed? && req.studentId != []
             && FindSubmission(subs, req.assignmentId, req.studentId).Some?) ==>
      result.0 == Refused(Response(400, "You have already submitted this assignment."))
  {
    var upload := Receive(req.file, now);
    if upload.Failed? then (Refused(UploadErrorResponse(upload.err)), subs)
    else if req.studentId == [] then (Refused(Response(400, "Missing studentId")), subs)
    else if FindSubmission(subs, req.assignmentId, req.studentId).Some? then
      (Refused(Response(400, "You have already submitted this assignment.")), subs)
    else match FindAssignment(assignments, req.assignmentId)
      case None => (Refused(Response(404, "Assignment not found")), subs)
      case Some(a) =>
        if now > a.dueDate then (Refused(Response(400, "Deadline has passed. Submission rejected.")), subs)
        else
          var s := Submission(newId, req.assignmentId, req.studentId, req.content,
                              UploadedUrl(upload, req.protocol, req.host), None, []);
          (Sent(201, s), subs + [s])
  }

  /** An accepted submission records the pair, the content, no grade and empty feedback, and keeps one per pair. */
  lemma SubmitAccepted(subs: seq<Submission>, assignments: seq<Assignment>, req: SubmitRequest, now: nat, newId: string)
    requires AtMostOnePerPair(subs)
    requires Submit(subs, assignments, req, now, newId).0.Sent?
    ensures var s := Submit(subs, assignments, req, now, newId).0.body;
      && s.assignmentId == req.assignmentId && s.studentId == req.studentId && s.studentId != []
      && s.content == req.content && s.grade.None? && s.feedback == []
      && FindAssignment(assignments, req.assignmentId).Some?
      && now <= FindAssignment(assignments, req.assignmentId).value.dueDate
      && AtMostOnePerPair(Submit(subs, assignments, req, now, newId).1)
  {
    var after := Submit(subs, assignments, req, now, newId).1;
    var s := Submit(subs, assignments, req, now, newId).0.body;
    forall i, j | 0 <= i < j < |after| ensures !SamePair(after[j], after[i].assignmentId, after[i].studentId) {
      if j == |subs| {
        assert after[i] in subs;
      }
    }
  }

  /** Once a submission is accepted, the same student's next attempt is refused and stores nothing. */
  lemma SecondSubmitRefused(subs: seq<Submission>, assignments: seq<Assignment>, req: SubmitRequest,
                            now: nat, newId: string, later: nat, newId2: string)
    requires Submit(subs, assignments, req, now, newId).0.Sent?
    requires !Receive(req.file, later).Failed?
    ensures var after := Submit(subs, assignments, req, now, newId).1;
      Submit(after, assignments, req, later, newId2)
        == (Refused(Response(400, "You have already submitted this assignment.")), after)
  {
    var after := Submit(subs, assignments, req, now, newId).1;
    assert after[|after| - 1] in after;
  }

  /** The duplicate check comes before the assignment lookup: a duplicate is reported even for a missing assignment. */
  lemma DuplicateCheckedBeforeAssignment(subs: seq<Submission>, req: SubmitRequest, now: nat, newId: string)
    requires !Receive(req.file, now).Failed? && req.studentId != []
    requires exists s :: s in subs && SamePair(s, req.assignmentId, req.studentId)
    ensures Submit(subs, [], req, now, newId).0 == Refused(Response(400, "You have already submitted this assignment."))
  {
  }

  /** With an upload that succeeded, a new pair and an existing assignment, the due date decides: on time up to and including it. */
  lemma DeadlineIsInclusive(subs: seq<Submission>, assignments: seq<Assignment>, req: SubmitRequest, now: nat, newId: string)
    requires !Receive(req.file, now).Failed? && req.studentId != []
    requires FindSubmission(subs, req.assignmentId, req.studentId).None?
    requires FindAssignment(assignments, req.assignmentId).Some?
    ensures var due := FindAssignment(assignments, req.assignmentId).value.dueDate;
      && (now <= due ==> Submit(subs, assignments, req, now, newId).0.Sent?)
      && (now > due ==> Submit(subs, assignments, req, now, newId).0
                          == Refused(Response(400, "Deadline has passed. Submission rejected.")))
  {
  }

  /** An unknown assignment is reported as 404 when the earlier checks pass. */
  lemma UnknownAssignmentNotFound(subs: seq<Submission>, assignments: seq<Assignment>, req: SubmitRequest, now: nat, newId: string)
    requires !Receive(req.file, now).Failed? && req.studentId != []
    requires FindSubmission(subs, req.assignmentId, req.studentId).None?
    requires forall a :: a in assignments ==> a.id != req.assignmentId
    ensures Submit(subs, assignments, req, now, newId).0 == Refused(Response(404, "Assignment not found"))
  {
    assert FindAssignment(assignments, req.assignmentId).None?;
  }

  /** GET /:assignmentId/my-submission: the student's submission, or null (not a 404) when there is none. */
  function MySubmission(subs: seq<Submission>, assignmentId: string, studentId: string): (r: Option<Submission>)
    ensures r.Some? ==> r.value in subs && SamePair(r.value, assignmentId, studentId)
    ensures r.None? <==> forall s :: s in subs ==> !SamePair(s, assignmentId, studentId)
  {
    FindSubmission(subs, assignmentId, studentId)
  }

  /** After an accepted submission, my-submission returns exactly that submission. */
  lemma MySubmissionAfterSubmit(subs: seq<Submission>, assignments: seq<Assignment>, req: SubmitRequest, now: nat, newId: string)
    requires Submit(subs, assignments, req, now, newId).0.Sent?
    ensures var r := Submit(subs, assignments, req, now, newId);
      MySubmission(r.1, req.assignmentId, req.studentId) == Some(r.0.body)
  {
    var r := Submit(subs, assignments, req, now, newId);
    FindAfterAppend(subs, r.0.body, req.assignmentId, req.studentId);
  }

  lemma {:induction false} FindAfterAppend(subs: seq<Submission>, s: Submission, assignmentId: string, studentId: string)
    requires FindSubmission(subs, assignmentId, studentId).None?
    requires SamePair(s, assignmentId, studentId)
    ensures FindSubmission(subs + [s], assignmentId, studentId) == Some(s)
  {
    if subs != [] {
      assert (subs + [s])[1..] == subs[1..] + [s];
      assert subs[0] in subs;
      FindAfterAppend(subs[1..], s, assignmentId, studentId);
    }
  }
}

=== FILE: text.dfy ===
/**
 * String helpers shared by the upload validator and the classroom code generator:
 * ASCII lower-casing (JavaScript's toLowerCase restricted to ASCII letters),
 * substring search (what an unanchored regular-expression alternative tests),
 * and the decimal rendering of a non-negative number (Number.prototype.toString).
 */
module Text {

  function LowerChar(c: char): char {
    if 'A' <= c <= 'Z' then (c as int + 32) as char else c
  }

  /** Lower-cases the ASCII letters of s and leaves every other character alone. */
  function Lower(s: string): string {
    seq(|s|, i requires 0 <= i < |s| => LowerChar(s[i]))
  }

  lemma LowerSlice(s: string, a: nat, b: nat)
    requires a <= b <= |s|
    ensures Lower(s)[a..b] == Lower(s[a..b])
  {
  }

  lemma LowerConcat(s: string, t: string)
    ensures Lower(s + t) == Lower(s) + Lower(t)
  {
  }

  lemma LowerIdempotent(s: string)
    ensures Lower(Lower(s)) == Lower(s)
  {
  }

  /** True when pat occurs somewhere inside s. */
  predicate Contains(s: string, pat: string) {
    exists i :: 0 <= i <= |s| && OccursAt(s, pat, i)
  }

  /** True when pat occurs in s starting at index i. */
  predicate OccursAt(s: string, pat: string, i: int) {
    0 <= i && i + |pat| <= |s| && s[i..i + |pat|] == pat
  }

  function DigitChar(d: nat): char
    requires d < 10
  {
    ('0' as int + d) as char
  }

  predicate IsDigit(c: char) {
    '0' <= c <= '9'
  }

  function DigitValue(c: char): nat
    requires IsDigit(c)
  {
    c as int - '0' as int
  }

  /** Decimal rendering of n, most significant digit first and without leading zeros. */
  function Decimal(n: nat): (s: string)
    ensures |s| >= 1
    ensures forall i :: 0 <= i < |s| ==> IsDigit(s[i])
    ensures n >= 10 ==> s[0] != '0'
  {
    if n < 10 then [DigitChar(n)] else Decimal(n / 10) + [DigitChar(n % 10)]
  }

  /** The number denoted by a string of decimal digits. */
  function DecimalValue(s: string): nat
    requires forall i :: 0 <= i < |s| ==> IsDigit(s[i])
  {
    if s == [] then 0
    else DecimalValue(s[..|s| - 1]) * 10 + DigitValue(s[|s| - 1])
  }

  /** Reading back a rendered number gives the number. */
  lemma {:induction false} DecimalRoundTrip(n: nat)
    ensures DecimalValue(Decimal(n)) == n
  {
    var s := Decimal(n);
    if n >= 10 {
      DecimalRoundTrip(n / 10);
      assert s[..|s| - 1] == Decimal(n / 10);
    } else {
      assert s[..|s| - 1] == [];
    }
  }

  function Pow10(k: nat): nat {
    if k == 0 then 1 else 10 * Pow10(k - 1)
  }

  /** A number between 10^k and 10^(k+1) - 1 is rendered with exactly k + 1 digits. */
  lemma {:induction false} DecimalLength(n: nat, k: nat)
    requires Pow10(k) <= n < Pow10(k + 1)
    ensures |Decimal(n)| == k + 1
  {
    if k > 0 {
      DecimalLength(n / 10, k - 1);
    }
  }
}

=== FILE: upload.dfy ===
/**
 * The upload middleware: one file under the form field "file", accepted when the
 * lower-cased extension of its original name matches the allowed-types pattern
 * anywhere, refused above 10000000 bytes, and stored as
 * "<field>-<timestamp><extension>".  The routes turn its errors into 400 replies.
 */
module Upload {
  import opened Wrappers
  import opened Text
  import opened Http

  // ---------------------------------------------------------------------------
  // path.extname (POSIX)

  /** The index of the last occurrence of c in s, or -1. */
  function LastIndexOf(s: string, c: char): (r: int)
    ensures -1 <= r < |s|
    ensures r >= 0 ==> s[r] == c
    ensures forall j :: r < j < |s| ==> s[j] != c
  {
    if s == [] then -1
    else if s[|s| - 1] == c then |s| - 1
    else LastIndexOf(s[..|s| - 1], c)
  }

  /** The length of s once its trailing slashes are removed. */
  function TrimmedEnd(s: string): (e: nat)
    ensures e <= |s|
    ensures e > 0 ==> s[e - 1] != '/'
    ensures forall j :: e <= j < |s| ==> s[j] == '/'
  {
    if s == [] then 0
    else if s[|s| - 1] == '/' then TrimmedEnd(s[..|s| - 1])
    else |s|
  }

  /** The last path component, trailing slashes ignored. */
  function Basename(path: string): (base: string)
    ensures forall i :: 0 <= i < |base| ==> base[i] != '/'
  {
    var trimmed := path[..TrimmedEnd(path)];
    trimmed[LastIndexOf(trimmed, '/') + 1..]
  }

  /**
   * The base name is the end of the path once trailing slashes are dropped, and it
   * starts at the beginning of the path or just after a slash.
   */
  lemma BasenameIsLastComponent(path: string)
    ensures var base, e := Basename(path), TrimmedEnd(path);
      && |base| <= e && base == path[e - |base|..e]
      && (e - |base| > 0 ==> path[e - |base| - 1] == '/')
  {
  }

  /**
   * `path.extname`: from the last dot of the last component to its end; empty when
   * that component has no dot, when its only dot is its first character, or when
   * it is "..".
   */
  function Extname(path: string): (ext: string)
    ensures ext == [] || ext[0] == '.'
    ensures forall i :: 0 <= i < |ext| ==> ext[i] != '/'
    ensures forall i :: 0 < i < |ext| ==> ext[i] != '.'
    ensures var base := Basename(path);
      ext != [] ==> |ext| < |base| && base[|base| - |ext|..] == ext
    ensures |ext| == 0 <==> HasNoExtension(Basename(path))
  {
    var base := Basename(path);
    ExtOfBase(base)
  }

  /** A component without an extension: "..", or no dot after its first character. */
  predicate HasNoExtension(base: string) {
    base == ".." || forall i :: 0 < i < |base| ==> base[i] != '.'
  }

  /** The extension of one path component. */
  function ExtOfBase(base: string): (ext: string)
    ensures ext == [] || ext[0] == '.'
    ensures forall i :: 0 < i < |ext| ==> ext[i] != '.'
    ensures (forall i :: 0 <= i < |base| ==> base[i] != '/') ==> forall i :: 0 <= i < |ext| ==> ext[i] != '/'
    ensures ext != [] ==> |ext| < |base| && base[|base| - |ext|..] == ext
    ensures |ext| == 0 <==> HasNoExtension(base)
  {
    var dot := LastIndexOf(base, '.');
    if dot <= 0 || base == ".." then [] else base[dot..]
  }

  /** Lower-casing moves no slash and no dot, so the last one stays where it was. */
  lemma {:induction false} LastIndexOfLower(s: string, c: char)
    requires c == '/' || c == '.'
    ensures LastIndexOf(Lower(s), c) == LastIndexOf(s, c)
  {
    if s != [] {
      var n := |s| - 1;
      LowerSlice(s, 0, n);
      assert s[0..n] == s[..n] && Lower(s)[0..n] == Lower(s)[..n];
      LastIndexOfLower(s[..n], c);
    }
  }

  lemma {:induction false} TrimmedEndLower(s: string)
    ensures TrimmedEnd(Lower(s)) == TrimmedEnd(s)
  {
    if s != [] {
      var n := |s| - 1;
      LowerSlice(s, 0, n);
      assert s[0..n] == s[..n] && Lower(s)[0..n] == Lower(s)[..n];
      TrimmedEndLower(s[..n]);
    }
  }

  lemma BasenameLower(path: string)
    ensures Basename(Lower(path)) == Lower(Basename(path))
  {
    var e := TrimmedEnd(path);
    TrimmedEndLower(path);
    var trimmed := path[..e];
    LowerSlice(path, 0, e);
    assert path[0..e] == trimmed && Lower(path)[0..e] == Lower(path)[..e];
    LastIndexOfLower(trimmed, '/');
    var start := LastIndexOf(trimmed, '/') + 1;
    LowerSlice(trimmed, start, |trimmed|);
  }

  /** Lower-casing a path lower-cases its extension and nothing more. */
  lemma ExtnameLower(path: string)
    ensures Extname(Lower(path)) == Lower(Extname(path))
  {
    BasenameLower(path);
    ExtOfBaseLower(Basename(path));
  }

  lemma ExtOfBaseLower(base: string)
    ensures ExtOfBase(Lower(base)) == Lower(ExtOfBase(base))
  {
    LastIndexOfLower(base, '.');
    DotDotLower(base);
    var dot := LastIndexOf(base, '.');
    if dot > 0 && base != ".." {
      LowerSlice(base, dot, |base|);
    }
  }

  /** Only ".." lower-cases to "..". */
  lemma DotDotLower(base: string)
    ensures Lower(base) == ".." <==> base == ".."
  {
    if |base| == 2 {
      assert Lower(base)[0] == LowerChar(base[0]) && Lower(base)[1] == LowerChar(base[1]);
    }
  }

  /** A name with no slash whose last dot sits at p > 0 has the extension name[p..]. */
  lemma ExtnameOfName(name: string, p: nat)
    requires forall i :: 0 <= i < |name| ==> name[i] != '/'
    requires 0 < p < |name| && name[p] == '.' && name != ".."
    requires forall j :: p < j < |name| ==> name[j] != '.'
    ensures Extname(name) == name[p..]
  {
    assert TrimmedEnd(name) == |name|;
    assert name[..|name|] == name;
    assert LastIndexOf(name, '/') == -1;
    assert Basename(name) == name[0..];
    assert name[0..] == name;
    assert LastIndexOf(name, '.') == p;
  }

  /** A name with neither slash nor dot has no extension. */
  lemma ExtnameOfPlainName(name: string)
    requires forall i :: 0 <= i < |name| ==> name[i] != '/' && name[i] != '.'
    ensures Extname(name) == []
  {
    assert TrimmedEnd(name) == |name|;
    assert name[..|name|] == name;
    assert LastIndexOf(name, '/') == -1;
    assert Basename(name) == name[0..];
    assert name[0..] == name;
    assert LastIndexOf(name, '.') == -1;
  }

  /** A dot-file such as ".pdf" has no extension: its only dot is its first character. */
  lemma DotFileHasNoExtension(name: string)
    requires |name| > 0 && name[0] == '.'
    requires forall i :: 0 < i < |name| ==> name[i] != '/' && name[i] != '.'
    ensures Extname(name) == []
  {
    assert TrimmedEnd(name) == |name|;
    assert LastIndexOf(name, '/') == -1;
    assert Basename(name) == name;
  }

  // ---------------------------------------------------------------------------
  // The type filter

  /** The alternatives of the allowed-types pattern. */
  const FileTypes: seq<string> :=
    ["jpeg", "jpg", "png", "gif", "pdf", "doc", "docx", "ppt", "pptx", "txt", "zip", "rar", "mp4", "webm"]

  /** The value the type filter rejects with: a bare string, with no `message` property. */
  const FilesOnly := "Error: Files Only!"

  datatype TypeCheck = Accepted | Rejected(reason: string)

  /** The pattern is unanchored: it matches when any alternative occurs anywhere in the text. */
  predicate MatchesFileTypes(text: string) {
    exists k :: 0 <= k < |FileTypes| && Contains(text, FileTypes[k])
  }

  /** `checkFileType`: test the pattern against the lower-cased extension of the original name. */
  function CheckFileType(originalname: string): (r: TypeCheck)
    ensures r.Accepted? <==> MatchesFileTypes(Lower(Extname(originalname)))
    ensures r.Rejected? ==> r.reason == FilesOnly
  {
    if MatchesFileTypes(Lower(Extname(originalname))) then Accepted else Rejected(FilesOnly)
  }

  /** The filter does not care about the case of the name. */
  lemma CheckFileTypeIgnoresCase(originalname: string)
    ensures CheckFileType(Lower(originalname)) == CheckFileType(originalname)
  {
    ExtnameLower(originalname);
    LowerIdempotent(Extname(originalname));
  }

  /** A name without an extension, such as a dot-file, is always refused. */
  lemma NoExtensionRejected(originalname: string)
    requires Extname(originalname) == []
    ensures CheckFileType(originalname) == Rejected(FilesOnly)
  {
    assert Lower(Extname(originalname)) == [];
    forall k | 0 <= k < |FileTypes| ensures !Contains([], FileTypes[k]) {
      assert |FileTypes[k]| > 0;
    }
  }

  /** A dot-file is refused even when its name is an allowed type, such as ".pdf". */
  lemma DotFileRejected(name: string)
    requires |name| > 0 && name[0] == '.'
    requires forall i :: 0 < i < |name| ==> name[i] != '/' && name[i] != '.'
    ensures CheckFileType(name) == Rejected(FilesOnly)
  {
    DotFileHasNoExtension(name);
    NoExtensionRejected(name);
  }

  /**
   * Because the pattern is unanchored, an extension that merely contains an allowed one
   * passes: any plain stem followed by ".PDFX" is accepted.
   */
  lemma UnanchoredPatternAcceptsLongerExtension(stem: string)
    requires |stem| > 0 && forall i :: 0 <= i < |stem| ==> stem[i] != '/' && stem[i] != '.'
    ensures Extname(stem + ".PDFX") == ".PDFX"
    ensures CheckFileType(stem + ".PDFX") == Accepted
  {
    PdfxIsAllowedExtension();
    AcceptedAfterPlainStem(stem, ".PDFX");
  }

  lemma PdfxIsAllowedExtension()
    ensures IsExtension(".PDFX") && MatchesFileTypes(Lower(".PDFX"))
  {
    var l := Lower(".PDFX");
    assert l[0] == '.' && l[1] == 'p' && l[2] == 'd' && l[3] == 'f' && l[4] == 'x';
    assert l == ".pdfx";
    PdfMatches(l, 1);
  }

  /** What `path.extname` can return: empty, or a dot followed by neither slash nor dot. */
  predicate IsExtension(ext: string) {
    && (ext == [] || ext[0] == '.')
    && (forall i :: 0 <= i < |ext| ==> ext[i] != '/')
    && (forall i :: 0 < i < |ext| ==> ext[i] != '.')
  }

  /** A name with neither slash nor dot. */
  predicate IsPlainStem(stem: string) {
    |stem| > 0 && forall i :: 0 <= i < |stem| ==> stem[i] != '/' && stem[i] != '.'
  }

  /** A plain stem followed by an extension the pattern matches is accepted. */
  lemma AcceptedAfterPlainStem(stem: string, ext: string)
    requires IsPlainStem(stem) && IsExtension(ext) && MatchesFileTypes(Lower(ext))
    ensures Extname(stem + ext) == ext
    ensures CheckFileType(stem + ext) == Accepted
  {
    ExtnameAfterPlainPrefix(stem, ext);
  }

  lemma PdfMatches(text: string, i: nat)
    requires OccursAt(text, "pdf", i)
    ensures MatchesFileTypes(text)
  {
    assert FileTypes[4] == "pdf";
  }

  // ---------------------------------------------------------------------------
  // The middleware

  /** The one form field a file may arrive under. */
  const UploadField := "file"

  /** The size limit, in bytes. */
  const MaxFileSize: nat := 10000000

  /** What arrives: the form field, the client's file name and the byte count. */
  datatype IncomingFile = IncomingFile(fieldname: string, originalname: string, size: nat)

  /** An error handed to the route's callback: a library error with a code, or any other thrown value. */
  datatype UploadError = MulterError(code: string, message: string) | Thrown(detail: Option<string>)

  datatype FileOutcome = NoFile | Stored(filename: string) | Failed(err: UploadError)

  /** The disk name: field name, a dash, the decimal timestamp, then the original extension. */
  function StoredFilename(fieldname: string, now: nat, originalname: string): string {
    fieldname + "-" + Decimal(now) + Extname(originalname)
  }

  /**
   * One request through the middleware: an unexpected field is refused first, then
   * the type filter, then the size limit; otherwise the file is stored.
   */
  function Receive(file: Option<IncomingFile>, now: nat): (r: FileOutcome)
    ensures file.None? <==> r.NoFile?
    ensures r.Stored? ==> && file.value.fieldname == UploadField
                          && CheckFileType(file.value.originalname).Accepted?
                          && file.value.size <= MaxFileSize
                          && r.filename == StoredFilename(UploadField, now, file.value.originalname)
  {
    match file
    case None => NoFile
    case Some(f) =>
      if f.fieldname != UploadField then Failed(MulterError("LIMIT_UNEXPECTED_FILE", "Unexpected field"))
      else if CheckFileType(f.originalname).Rejected? then Failed(Thrown(None))
      else if f.size > MaxFileSize then Failed(MulterError("LIMIT_FILE_SIZE", "File too large"))
      else Stored(StoredFilename(f.fieldname, now, f.originalname))
  }

  /** The reply a route sends for an upload error. */
  function UploadErrorResponse(err: UploadError): (r: Response)
    ensures r.status == 400
    ensures err.MulterError? && err.code == "LIMIT_FILE_SIZE" ==> r.message == "File size should be less than 5 MB"
    ensures err.MulterError? && err.code != "LIMIT_FILE_SIZE" ==> r.message == err.message
    ensures err.Thrown? ==> r.message == (if err.detail.Some? && err.detail.value != [] then err.detail.value else "Upload error")
  {
    match err
    case MulterError(code, message) =>
      if code == "LIMIT_FILE_SIZE" then Response(400, "File size should be less than 5 MB") else Response(400, message)
    case Thrown(detail) =>
      if detail.Some? && detail.value != [] then Response(400, detail.value) else Response(400, "Upload error")
  }

  /** The public URL of a stored file. */
  function FileUrl(protocol: string, host: string, filename: string): (url: string)
    ensures |url| >= |filename| && url[|url| - |filename|..] == filename
  {
    protocol + "://" + host + "/uploads/" + filename
  }

  /** A file the type filter refuses reaches the client as the generic "Upload error", not "Files Only". */
  lemma TypeRejectionReportsGenericError(f: IncomingFile, now: nat)
    requires f.fieldname == UploadField && CheckFileType(f.originalname).Rejected?
    ensures Receive(Some(f), now) == Failed(Thrown(None))
    ensures UploadErrorResponse(Receive(Some(f), now).err) == Response(400, "Upload error")
  {
  }

  /** Files of an accepted type are refused by size exactly above 10000000 bytes. */
  lemma SizeLimitIsTenMillionBytes(f: IncomingFile, now: nat)
    requires f.fieldname == UploadField && CheckFileType(f.originalname).Accepted?
    ensures Receive(Some(f), now).Stored? <==> f.size <= MaxFileSize
    ensures !Receive(Some(f), now).Stored? ==>
      UploadErrorResponse(Receive(Some(f), now).err) == Response(400, "File size should be less than 5 MB")
  {
  }

  /** A stem with neither slash nor dot, followed by ".pdf", passes the type filter. */
  lemma PdfNameAccepted(stem: string)
    requires |stem| > 0 && forall i :: 0 <= i < |stem| ==> stem[i] != '/' && stem[i] != '.'
    ensures CheckFileType(stem + ".pdf") == Accepted
  {
    PdfIsAllowedExtension();
    AcceptedAfterPlainStem(stem, ".pdf");
  }

  lemma PdfIsAllowedExtension()
    ensures IsExtension(".pdf") && MatchesFileTypes(Lower(".pdf"))
  {
    var l := Lower(".pdf");
    assert l[0] == '.' && l[1] == 'p' && l[2] == 'd' && l[3] == 'f';
    assert l == ".pdf";
    PdfMatches(l, 1);
  }

  /**
   * The stored name keeps the original extension, and its timestamp reads back:
   * it is the field name, a dash, the digits of `now`, then the extension.
   */
  lemma StoredFilenameKeepsExtension(now: nat, originalname: string)
    ensures var name := StoredFilename(UploadField, now, originalname);
      && Extname(name) == Extname(originalname)
      && name[..|UploadField| + 1] == UploadField + "-"
      && DecimalValue(name[|UploadField| + 1..|name| - |Extname(originalname)|]) == now
  {
    var ext := Extname(originalname);
    var digits := Decimal(now);
    StoredPrefixIsPlain(now);
    ExtnameAfterPlainPrefix(UploadField + "-" + digits, ext);
    ThreePartSlices(UploadField + "-", digits, ext);
    DecimalRoundTrip(now);
  }

  lemma ThreePartSlices(head: string, middle: string, tail: string)
    ensures var whole := head + middle + tail;
      && whole[..|head|] == head
      && whole[|head|..|whole| - |tail|] == middle
  {
  }

  /** "file-" and the digits of a timestamp hold neither a slash nor a dot. */
  lemma StoredPrefixIsPlain(now: nat)
    ensures IsPlainStem(UploadField + "-" + Decimal(now))
  {
    var digits := Decimal(now);
    var prefix := UploadField + "-" + digits;
    forall i | 0 <= i < |prefix| ensures prefix[i] != '/' && prefix[i] != '.' {
      if i >= |UploadField| + 1 {
        assert prefix[i] == digits[i - |UploadField| - 1];
      }
    }
  }

  /** After a prefix with neither slash nor dot, anything shaped like an extension is the extension. */
  lemma ExtnameAfterPlainPrefix(prefix: string, ext: string)
    requires IsPlainStem(prefix) && IsExtension(ext)
    ensures Extname(prefix + ext) == ext
  {
    var name := prefix + ext;
    forall i | 0 <= i < |name| ensures name[i] != '/' {
      if i >= |prefix| {
        assert name[i] == ext[i - |prefix|];
      } else {
        assert name[i] == prefix[i];
      }
    }
    if ext == [] {
      assert name == prefix;
      ExtnameOfPlainName(name);
    } else {
      forall j | |prefix| < j < |name| ensures name[j] != '.' {
        assert name[j] == ext[j - |prefix|];
      }
      assert name[0] == prefix[0];
      ExtnameOfName(name, |prefix|);
      assert name[|prefix|..] == ext;
    }
  }
}

=== FILE: wrappers.dfy ===
/** The optional value used throughout the model for fields and lookups that may be absent. */
module Wrappers {
  datatype Option<+T> = None | Some(value: T)
}
